=== FILE: README.md ===
# BattleBit settings transcoder, modelled in Dafny

This project models the settings transcoder of the BattleBit Remastered
registry editor. The editor reads the game's settings from the Windows registry
and exports them to a TOML file. A setting is one value of seven kinds: Int,
Float, Bool, Axis, Color(channel, value), Key(code point) and Str. The export
can be limited by filters. The editor also imports a TOML file back and stages
its values as registry writes.

The model has three parts, as pure functions over immutable datatypes.

- **Value model and registry-name codec** (`Values`, `RegNames`, `Registry`, with
  `Bytes`, `Utf8`, `Strings` and `Keys` underneath):
  - The values and their little-endian registry encoding (`to_reg_value`).
  - The decoding of a raw registry entry (`from_reg`). It splits the raw name on
    `_`, reads the kind tag from the second-to-last token and decodes the blob.
  - The textual key form (`to_key_ascii` / `from_key_ascii`).
  - The reverse name resolution (`resolve_regedit_name`) and staging of writes
    (`update_registry`).
- **Text codec** (`TomlTree`, `TextCodec`):
  - The TOML document as a tree whose tables are ordered entry lists, and the
    recursive key sort `sort_toml`.
  - Full and filtered export (`to_toml`, `to_filtered_toml`).
  - The all-or-nothing import (`from_toml`).
- **Filters** (`Filters`, `Commands`):
  - The five substring filters and their dispatch.
  - `parse_filters` with the `common` bundle.
  - The comma splitting of `--filters` arguments (`process_filters`).
  - The export command's choice between filtered and full export.

Conventions:

- A hash map's iteration order is not fixed by the program. Wherever the source
  iterates a `HashMap`, the model takes that order as an explicit parameter: a
  sequence listing every key once.
- f64 payloads are 64-bit patterns, never real numbers.
- Strings are sequences of Unicode scalar values. UTF-8 encoding and decoding
  are defined in full.

The model follows the code as written, including where it departs from what a
reader of the tool's description would expect:

- Import decodes every record before staging any. A single bad record therefore
  leaves the staged writes untouched.
- A key binding is always exported as its literal character, never as a `\u`
  escape.
- A setting whose tag is not recognised is named after the tokens before the
  tag. Both the tag and the last token are dropped.
- A `Screenmanager…_<last>` entry (one `_`) decodes under the empty name.
  Every such entry then shares that name, and a write-back goes to the first
  original key containing `_int`, or to `_int` itself when no key contains
  it, not to the entry it came from.

## Model

| member | source | states |
|---|---|---|
| Bytes.I32RoundTrip | src/battlebit.rs:85-89 | reading back the four little-endian bytes written for an i32 gives the i32 |
| Bytes.I32BytesRoundTrip | src/battlebit.rs:85-89 | every 4-byte blob is the little-endian encoding of the i32 it is read as |
| Bytes.F64RoundTrip | src/battlebit.rs:92-96 | reading back the eight bytes written for an f64 bit pattern gives it back |
| Bytes.F64BytesRoundTrip | src/battlebit.rs:92-96 | every 8-byte blob is the encoding of the f64 it is read as |
| Bytes.TruncI32 | src/toml.rs:75-79 | the `as i32` cast keeps the value modulo 2^32, and leaves any value already in i32 range unchanged |
| Utf8.DecodeEncode | src/battlebit.rs:197-200 | decoding the UTF-8 bytes of a string succeeds and gives the string back |
| Utf8.EncodeDecode | src/battlebit.rs:138-141 | bytes that decode as UTF-8 are exactly the encoding of the decoded string |
| Strings.Contains | src/battlebit.rs:264 | substring search holds exactly when the needle occurs at some index |
| Strings.SplitPieces | src/battlebit.rs:69 | splitting gives more than one piece exactly when the separator occurs, and no piece holds the separator |
| Strings.JoinSplit | src/battlebit.rs:69-73 | joining the pieces of a split with the separator restores the string |
| Strings.SplitJoin | src/battlebit.rs:69-73 | splitting the join of separator-free pieces gives the pieces back |
| Keys.ToKeyAscii | src/battlebit.rs:30-32 | a valid key code renders as the one character with that code point |
| Keys.FromKeyAscii | src/battlebit.rs:34-47 | the result is always a Unicode scalar value; an empty string is "No char found"; a string without the `\u` prefix yields its first character's code point; the value of an escape is stated by FromKeyAsciiEscapeValue |
| Keys.KeyAsciiRoundTrip | src/battlebit.rs:30-47 | every valid key code survives rendering and parsing |
| Keys.EscapeRoundTrip | src/battlebit.rs:35-40 | a `\u` escape of the lower-case hexadecimal digits of a valid code parses to that code |
| Keys.SurrogateEscapeRefused | src/battlebit.rs:38-39 | `\ud800` parses as a number but is refused as a character |
| Keys.ParseHexU32 | src/battlebit.rs:37 | an empty digit string is the Empty error; an accepted value is below 2^32 and all its digits are hexadecimal; the value itself is stated by ParseHexU32Value |
| Keys.ParseDigitsValue | src/battlebit.rs:37 | over hexadecimal digits, the left-to-right accumulation equals the positional value of the digits, or overflows exactly when that value reaches 2^32 |
| Keys.ParseDigitsInvalid | src/battlebit.rs:37 | the first non-digit is reported as an invalid digit, unless the digits before it already overflow |
| Keys.ParseHexU32Value | src/battlebit.rs:37 | a string parses to `v` exactly when, after at most one `+`, it is a non-empty run of hexadecimal digits of either case whose positional value is `v` and below 2^32 |
| Keys.ParseHexU32Errors | src/battlebit.rs:37 | a lone sign is an invalid digit; digits worth 2^32 or more overflow; otherwise the first non-digit is an invalid digit unless the digits before it overflow |
| Keys.FromKeyAsciiEscapeValue | src/battlebit.rs:35-46 | a `\u`-prefixed key is `v` exactly when the digits left after every leading `\u` and one `+` are hexadecimal, denote `v`, and `v` is a Unicode scalar value |
| Keys.FromKeyAsciiEscapeErrors | src/battlebit.rs:35-40 | an escape whose number is below 2^32 but not a scalar value is "Failed to convert u32 to char"; any other failure is the number's parse error |
| Keys.EscapeUpperCase | src/battlebit.rs:35-40 | `\u1F600` reads as U+1F600: upper-case digits are accepted |
| Keys.EscapeLeadingZeros | src/battlebit.rs:35-40 | `\u0041` reads as 0x41 |
| Keys.EscapePlusSign | src/battlebit.rs:35-40 | `\u+41` reads as 0x41: a leading `+` is accepted |
| Keys.EscapeRepeatedPrefix | src/battlebit.rs:35-40 | `\u\u41` reads as 0x41: every repetition of the prefix is stripped |
| Values.TypeStr | src/battlebit.rs:159-169 | every kind tag is one of the seven the importer accepts |
| Values.TypeStrIdentifiesKind | src/battlebit.rs:159-169 | two values share a kind tag exactly when they are of the same kind |
| Values.ToRegValue | src/battlebit.rs:171-202 | the blob is 4 bytes for Int, Axis and Key, 8 for Float and Color, 1 for Bool and the UTF-8 length for Str; it is typed binary exactly for Str |
| Values.ToTomlValue | src/battlebit.rs:147-157 | Int and Axis become integers, Float and Color floats, Bool a boolean, Key and Str strings, and every result is a scalar |
| RegNames.TaggedName | src/battlebit.rs:73-143 | axis, key and colour settings are named by the base name plus their tag; every other setting, a `Screenmanager` one included, by the base name alone |
| RegNames.TaggedValue | src/battlebit.rs:75-143 | a `Screenmanager` tag gives an Int; int, float, bool, axis and key tags give a value of that kind; a colour tag gives a Color of its channel exactly for an 8-byte blob and Int(0) otherwise; an unknown tag gives a Str |
| RegNames.TaggedI32Bytes | src/battlebit.rs:75-118 | under an integer tag a 4-byte blob is read back exactly, and any other length gives the kind's zero |
| RegNames.TaggedF64Bytes | src/battlebit.rs:91-97 | under the float or a colour tag an 8-byte blob is read back exactly, and a float blob of any other length gives 0.0 |
| RegNames.TaggedBoolBytes | src/battlebit.rs:98-104 | a Bool is true exactly when the blob is the 4-byte little-endian 1 |
| RegNames.TaggedStrBytes | src/battlebit.rs:137-143 | text is the UTF-8 decoding of the blob, or empty when the blob is not valid UTF-8 |
| RegNames.DecodeTagged | src/battlebit.rs:73-143 | a decoded entry's name is the logical name of its value under the base name (axis, key and colour names keep their tag), except when a colour tag yields no Color, which happens for a blob of the wrong length |
| RegNames.FromReg | src/battlebit.rs:65-73 | decoding fails, where the source panics on index `length - 2`, exactly when the raw name has no `_` |
| RegNames.FromRegShape | src/battlebit.rs:69-73 | a raw name `<base>_<tag>_<last>` is decoded by its tag under the base name, and the last token is discarded |
| RegNames.FromRegShortName | src/battlebit.rs:69-73 | a raw name with a single `_` decodes under the empty base name |
| RegNames.DecodeOwnTag | src/battlebit.rs:84-136 | a blob written by `to_reg_value` and decoded under the value's own tag gives the value back under its logical name, for every kind but Bool |
| RegNames.FromRegRoundTrip | src/battlebit.rs:84-136 | decoding what `to_reg_value` wrote, under a raw name carrying the value's tag, gives every kind but Bool back under its logical name |
| RegNames.BoolRoundTripLosesTrue | src/battlebit.rs:98-104 | the one-byte blob written for a Bool always reads back as false |
| RegNames.ColorWrongLengthIsInt | src/battlebit.rs:128-131 | a colour blob that is not 8 bytes becomes Int(0) under the suffixed colour name |
| RegNames.UnknownTagDropsTokens | src/battlebit.rs:137-143 | an unrecognised tag gives a Str named by the base alone, dropping the tag and the last token |
| RegNames.FromRegColorName | src/battlebit.rs:119-135 | every decoded colour's logical name ends in its channel's letter |
| Registry.ResolveRegeditName | src/battlebit.rs:255-270 | the resolved name is either the candidate itself or one of the original keys |
| Registry.ResolveSpec | src/battlebit.rs:255-270 | resolution gives the first original key that contains the candidate, or the candidate when no key contains it; either way the result contains the candidate |
| Registry.ResolveFirstMatch | src/battlebit.rs:263-268 | given the first key that contains the candidate, resolution returns exactly that key |
| Registry.ResolveStable | src/battlebit.rs:263-268 | if any original key contains the candidate, the result is an original key |
| Registry.UpdateRegistry | src/battlebit.rs:272-275 | staging writes the value at the resolved name only, keeps every other staged value and leaves the original keys and the registry alone |
| Registry.Stage | src/toml.rs:125-127 | staging leaves the original keys and the decoded registry alone; what it writes is stated by StageWrites |
| Registry.StageWrites | src/toml.rs:125-127 | staging all decoded entries writes exactly their resolved names and keeps the other staged values; when several resolve to one raw name, the last one staged wins |
| Registry.StageKeys | src/toml.rs:125-127 | the staged names afterwards are the old ones plus the resolved names of the decoded entries |
| Registry.WrittenTargets | src/toml.rs:125-127 | a raw name is written exactly when some decoded entry resolves to it, whatever the staging order |
| Registry.StagedValue | src/toml.rs:125-127 | when no two entries resolve to one raw name, each entry's value ends up at its own resolved name |
| Registry.StageOrderIrrelevant | src/toml.rs:125-127 | when no two entries resolve to one raw name, the staged state does not depend on the map's iteration order |
| Registry.WriteBackTargetsSource | src/battlebit.rs:255-270 | a value of any kind but Bool, stored under a raw name `<base>_<its own tag>_<last>` and read back, is written back to that same raw name, unless an earlier original key contains the same candidate |
| Registry.ScreenManagerWriteBack | src/battlebit.rs:72-81 | a `Screenmanager…_<last>` entry decodes as an Int under the empty name, so its candidate is `_int` and its write-back target is the same whichever entry it came from |
| TomlTree.Lookup | src/toml.rs:69 | a lookup finds a value exactly when some entry has the key, and the value found is stored under that key |
| TomlTree.SortEntries | src/toml.rs:136-140 | sorting a table's entries gives a permutation of them with ascending keys |
| TomlTree.SortToml | src/toml.rs:133-146 | tables at every depth end up with ascending keys and the same key set; arrays keep their length and order with each element sorted; scalars are unchanged |
| TomlTree.SortTomlFixpoint | src/toml.rs:133-146 | a tree already sorted at every depth is left as it is |
| TomlTree.SortTomlIdempotent | src/toml.rs:133-146 | sorting twice is sorting once |
| TomlTree.SortTomlOrderIndependent | src/toml.rs:133-146 | the sorted form of a table with distinct keys depends only on which entries it holds, not on their order |
| TomlTree.SortTableEntries | src/toml.rs:135-141 | sorting a table with distinct keys keeps the keys distinct, and the result holds exactly the original entries with their values sorted |
| TomlTree.StrictlySortedUnique | src/toml.rs:136-140 | two tables with strictly ascending keys and the same entries are equal |
| TomlTree.SortedTablesEqual | src/toml.rs:136-140 | two sorted tables with distinct keys that agree on every lookup are equal |
| TextCodec.RecordTable | src/toml.rs:22-28 | an exported record is already sorted |
| TextCodec.ToToml | src/toml.rs:18-36 | the export is a sorted table with exactly one entry per registry name, holding the value's kind tag and rendered payload |
| TextCodec.ToTomlDeterministic | src/toml.rs:18-36 | the export does not depend on the registry map's iteration order |
| TextCodec.Selected | src/toml.rs:40-46 | a name is selected exactly when it is in the registry and some filter accepts it with its kind tag |
| TextCodec.ToFilteredToml | src/toml.rs:38-61 | the filtered export holds a name exactly when some filter accepts it, with the same record the full export gives it; only the selected settings need to be renderable |
| TextCodec.AudioSelectsVolumeOnly | src/toml.rs:44-48 | in a registry with a volume setting and a key binding whose code is a lone surrogate, the audio filter selects only the volume setting, so everything it selects is renderable although the registry is not |
| TextCodec.FilteredExportSkipsUnselected | src/toml.rs:44-48 | that registry's audio-only export holds exactly the volume setting: the unrenderable key binding is never rendered |
| TextCodec.FilteredIsSubTable | src/toml.rs:38-61 | the filtered export is a sub-table of the full export, and is empty when there are no filters |
| TextCodec.ParseRecord | src/toml.rs:11-15 | a record is accepted exactly when it is a table holding a string `typ` and a `value`, and it then carries those two; other fields are ignored |
| TextCodec.EntriesOf | src/toml.rs:69 | the document converts exactly when it is a table of records, keyed by the table's keys |
| TextCodec.DecodeRecordSpec | src/toml.rs:74-120 | an unknown tag is an error; float, bool and str need a value of matching shape; int and axis need an integer and keep it modulo 2^32; a colour needs a float and a name ending in r, g, b or a, which gives its channel; a key needs a string that parses as a key, and decodes to the code that parse gives |
| TextCodec.DecodeRecord | src/toml.rs:74-120 | a decoded value's kind tag is the record's tag, and the record's value has the shape that tag needs |
| TextCodec.TextRoundTrip | src/toml.rs:74-118 | the record exported for a value decodes back to it, provided a colour's name ends in its channel's letter and a key is a valid character |
| TextCodec.RegistryColorsAreTextSafe | src/battlebit.rs:119-135 | every colour read from the registry meets that naming condition |
| TextCodec.DecodeAll | src/toml.rs:71-123 | decoding succeeds exactly when every record decodes, and then maps each name to its decoded value; a failure reports the first failing record in iteration order |
| TextCodec.FromToml | src/toml.rs:68-130 | a failed import leaves the state unchanged, and no import touches the original keys or the registry |
| TextCodec.DecodeAllIsDecodedMap | src/toml.rs:71-123 | in any iteration order, decoding succeeds exactly when every record decodes, and yields the same map |
| TextCodec.FromTomlOutcome | src/toml.rs:68-130 | an import succeeds exactly when the document is a table of records that all decode, and then stages every decoded value |
| TextCodec.ImportOrderIrrelevant | src/toml.rs:68-130 | whether an import succeeds and the state it leaves do not depend on iteration order when no two records resolve to one raw name |
| TextCodec.ImportAllOrNothing | src/toml.rs:71-127 | one record that fails to decode makes the import fail with nothing staged |
| TextCodec.ExportedRecords | src/toml.rs:18-36 | the exported document reads back as one record per registry entry, holding its kind tag and rendered payload |
| TextCodec.ExportImportRoundTrip | src/toml.rs:18-130 | importing the export succeeds and stages exactly the registry's values, each at its resolved name |
| Filters.HitmarkersAccepts | src/filters.rs:9-13 | accepts exactly when the name contains "HitMarker" |
| Filters.KeybindingsAccepts | src/filters.rs:17-21 | accepts exactly when the name contains "key" or "axis", or the kind tag is "key" or "axis" |
| Filters.SensitivityAccepts | src/filters.rs:25-29 | accepts exactly when the name contains "Sensitivity" |
| Filters.AudioAccepts | src/filters.rs:33-37 | accepts exactly when the name contains "Volume" |
| Filters.ManualAccepts | src/filters.rs:41-45 | accepts exactly when the name contains the pattern |
| Filters.Accepts | src/filters.rs:56-66 | each variant's verdict is its own predicate's |
| Filters.OnlyKeybindingsReadsTag | src/filters.rs:9-45 | every filter but key bindings ignores the kind tag |
| Filters.ManualEmptyAcceptsAll | src/filters.rs:41-45 | an empty manual pattern accepts every name |
| Filters.KeybindingsCaseSensitive | src/filters.rs:17-21 | matching is case-sensitive: "KEY" is not a key binding |
| Filters.AnyAccepts | src/toml.rs:44 | a list accepts exactly when one of its filters does |
| Filters.AnyAcceptsUnion | src/toml.rs:44 | a concatenated filter list accepts what either part accepts |
| Filters.ParseToken | src/filters.rs:79-93 | "common" expands in place to hit markers, key bindings and audio, in that order, and any other token gives one filter; a token that is not a built-in name becomes a manual filter on itself |
| Filters.BuiltinTokensSelect | src/filters.rs:81-84 | "hitmarkers", "keybindings", "sensitivity" and "audio" each select exactly what their own filter variant selects |
| Filters.AudioTokenSelectsVolume | src/filters.rs:76-95 | the filter list parsed from the single token "audio" selects exactly the settings whose name contains "Volume" |
| Filters.ParseFilters | src/filters.rs:76-96 | the output length is the input length plus two per "common" token |
| Filters.ParseFiltersAppend | src/filters.rs:76-96 | parsing is the in-order concatenation of each token's filters |
| Filters.ParseFiltersAccepts | src/filters.rs:76-96 | the parsed list accepts exactly when some token's filters accept |
| Filters.CommonIsUnion | src/filters.rs:68-74 | "common" selects exactly what hit markers, key bindings and audio select together |
| Filters.ParseTokenCaseSensitive | src/filters.rs:80-89 | "Audio" is not the audio filter but a manual filter |
| Commands.ProcessFilters | src/main.rs:49-60 | the output is at least as long as the input, and no piece contains a comma |
| Commands.ProcessFiltersIsSplitOfJoin | src/main.rs:49-60 | the pieces are exactly the comma-separated runs of the comma-joined tokens, in order, empty pieces included |
| Commands.ProcessFiltersAppend | src/main.rs:49-60 | the output is the in-order concatenation of each token's pieces |
| Commands.ProcessFiltersToken | src/main.rs:53-57 | one token becomes its comma-separated pieces, and joining them with commas gives the token back |
| Commands.ProcessFiltersJoin | src/main.rs:49-60 | joining the output with commas gives the comma-joined input, and tokens without commas pass through unchanged |
| Commands.Tokens | src/main.rs:87-91 | there are no filter tokens exactly when `--filters` is absent or has no argument, and no token contains a comma |
| Commands.Export | src/main.rs:87-97 | the exported document is a sorted table whose every entry is a renderable registry setting with its record; a filtered export needs only the selected settings to be renderable |
| Commands.ExportSelects | src/main.rs:87-97 | a setting is exported exactly when no filter tokens were given or some token's filters accept it |
| Commands.AcceptAllIsFullExport | src/toml.rs:38-61 | filters that accept every setting give the full export |
| Commands.EmptyPieceExportsAll | src/main.rs:49-60 | an empty piece, as from `a,,b`, becomes a manual filter that matches everything, so the export is the full one |

## Left out

- Reading the registry (`State::new`) and writing it (`save_registry`) go through
  the Windows registry. The original key list and the decoded registry map are
  inputs of the model.
- The `prompt!` macro, command-line parsing, file reads and writes, `main`,
  logging and terminal setup are console and file I/O.
- The toml crate's parser and pretty-printer are a foreign library. The model's
  document is the value tree before printing. `TomlTree.SortToml` keeps every
  entry of a table with duplicate keys, where the source's `BTreeMap` keeps one;
  parsed TOML tables never have duplicate keys. `EntriesOf` stands in for the
  serde conversion to a map of `{typ, value}` records: other fields are ignored
  and duplicate keys take the first entry. The derived deserializer also accepts
  a record written as a two-element array, `name = ["int", 5]`; `EntriesOf`
  rejects that form.
- A toml table is modelled as an ordered list of entries, so that the
  serializer's printing order is part of the value `sort_toml` returns.
- f64 arithmetic: Float and Color payloads are opaque 64-bit patterns. The
  source's `as f64` casts on f64 values are identities.
- Keys.ToKeyAscii: requires a valid Unicode scalar value. The source converts
  unchecked, which is undefined for any other code.
- TextCodec.ToToml: requires every key code to be a valid scalar value, for the
  same reason. TextCodec.ToFilteredToml requires this only of the settings the
  filters select, because the others are never rendered. Commands.Export
  requires whichever of the two the chosen path renders.
- Hash map iteration order is a parameter. Export does not depend on it
  (`ToTomlDeterministic`). It decides which error a failing import reports. It
  also decides which value wins when two records resolve to the same raw name.
- RegNames.FromReg: the panic on a name without `_` is modelled as an error
  result, not a process abort.

=== FILE: bytes.dfy ===
/** Fixed-width integers and their little-endian byte layouts, as produced by
    Rust's `to_le_bytes` / `from_le_bytes` and the `as i32` cast. */
module Bytes {

  type byte = x: int | 0 <= x < 256

  const TWO_31: int := 0x8000_0000
  const TWO_32: int := 0x1_0000_0000
  const TWO_63: int := 0x8000_0000_0000_0000
  const TWO_64: int := 0x1_0000_0000_0000_0000

  type i32 = x: int | -TWO_31 <= x < TWO_31
  type i64 = x: int | -TWO_63 <= x < TWO_63

  /** An IEEE-754 double kept as its raw 64-bit pattern; the editor only moves
      these bits between the registry and the text file, it never computes with them. */
  type F64 = x: int | 0 <= x < TWO_64

  /** The bit pattern of `0.0`. */
  const ZERO_F64: F64 := 0

  /** 256 to the power `n`: the number of values `n` bytes can hold. */
  function Pow256(n: nat): (p: nat)
    ensures p >= 1
  {
    if n == 0 then 1 else 256 * Pow256(n - 1)
  }

  /** Four bytes hold exactly the 32-bit range and eight the 64-bit range. */
  lemma Pow256Widths()
    ensures Pow256(4) == TWO_32 && Pow256(8) == TWO_64
  {
    assert Pow256(4) == 256 * 256 * 256 * 256;
    assert Pow256(8) == Pow256(4) * Pow256(4) by {
      assert Pow256(8) == 256 * 256 * 256 * 256 * Pow256(4);
    }
  }

  /** `x` written as `n` little-endian bytes. */
  function ToLe(x: nat, n: nat): (r: seq<byte>)
    requires x < Pow256(n)
    ensures |r| == n
  {
    if n == 0 then [] else [x % 256] + ToLe(x / 256, n - 1)
  }

  /** The unsigned number whose little-endian bytes are `bs`. */
  function FromLe(bs: seq<byte>): (x: nat)
    ensures x < Pow256(|bs|)
  {
    if |bs| == 0 then 0 else bs[0] + 256 * FromLe(bs[1..])
  }

  lemma {:induction false} FromLeToLe(x: nat, n: nat)
    requires x < Pow256(n)
    ensures FromLe(ToLe(x, n)) == x
  {
    if n > 0 {
      FromLeToLe(x / 256, n - 1);
      assert ToLe(x, n)[1..] == ToLe(x / 256, n - 1);
    }
  }

  lemma {:induction false} ToLeFromLe(bs: seq<byte>)
    ensures ToLe(FromLe(bs), |bs|) == bs
  {
    if |bs| > 0 {
      ToLeFromLe(bs[1..]);
      var x := FromLe(bs);
      assert x % 256 == bs[0];
      assert x / 256 == FromLe(bs[1..]);
      assert bs == [bs[0]] + bs[1..];
    }
  }

  /** The two's-complement reading of a 32-bit pattern. */
  function SignedOf32(u: nat): (v: i32)
    requires u < TWO_32
  {
    if u >= TWO_31 then u - TWO_32 else u
  }

  /** The 32-bit pattern of a signed value. */
  function UnsignedOf32(v: i32): (u: nat)
    ensures u < TWO_32
    ensures SignedOf32(u) == v
  {
    if v < 0 then v + TWO_32 else v
  }

  /** `i32::to_le_bytes`. */
  function I32ToLe(v: i32): (r: seq<byte>)
    ensures |r| == 4
  {
    ToLe(UnsignedOf32(v), 4)
  }

  /** `i32::from_le_bytes`; its partner `I32ToLe` is proved an inverse below. */
  function I32FromLe(bs: seq<byte>): i32
    requires |bs| == 4
  {
    SignedOf32(FromLe(bs))
  }

  lemma I32RoundTrip(v: i32)
    ensures I32FromLe(I32ToLe(v)) == v
  {
    FromLeToLe(UnsignedOf32(v), 4);
  }

  lemma I32BytesRoundTrip(bs: seq<byte>)
    requires |bs| == 4
    ensures I32ToLe(I32FromLe(bs)) == bs
  {
    ToLeFromLe(bs);
    var u := FromLe(bs);
    assert UnsignedOf32(SignedOf32(u)) == u;
  }

  /** `f64::to_le_bytes` on the bit pattern. */
  function F64ToLe(f: F64): (r: seq<byte>)
    ensures |r| == 8
  {
    ToLe(f, 8)
  }

  /** `f64::from_le_bytes`. */
  function F64FromLe(bs: seq<byte>): F64
    requires |bs| == 8
  {
    FromLe(bs)
  }

  lemma F64RoundTrip(f: F64)
    ensures F64FromLe(F64ToLe(f)) == f
  {
    FromLeToLe(f, 8);
  }

  lemma F64BytesRoundTrip(bs: seq<byte>)
    requires |bs| == 8
    ensures F64ToLe(F64FromLe(bs)) == bs
  {
    ToLeFromLe(bs);
  }

  /** The `as i32` cast of a 64-bit integer: keeps the low 32 bits and
      reads them as two's complement. */
  function TruncI32(x: i64): (v: i32)
    ensures (v - x) % TWO_32 == 0
    ensures -TWO_31 <= x < TWO_31 ==> v == x
  {
    SignedOf32(x % TWO_32)
  }
}

=== FILE: commands.dfy ===
/** The export command's handling of `--filters` (src/main.rs:49-60, 87-97). */
module Commands {
  import opened Wrappers
  import opened Strings
  import opened Values
  import Filters
  import T = TomlTree
  import opened TextCodec
  import Registry

  /** `process_filters`: every token split at its commas, the pieces kept in
      order, empty pieces included. */
  function ProcessFilters(tokens: seq<string>): (ps: seq<string>)
    ensures |ps| >= |tokens|
    ensures forall i :: 0 <= i < |ps| ==> ',' !in ps[i]
  {
    if |tokens| == 0 then []
    else
      var t := tokens[0];
      SplitPieces(t, ',');
      (if ',' in t then Split(t, ',') else [t]) + ProcessFilters(tokens[1..])
  }

  /** Processing a token list is splitting the comma-joined list: the pieces
      are exactly the comma-free runs of the input, in order. */
  lemma {:induction false} ProcessFiltersIsSplitOfJoin(tokens: seq<string>)
    requires |tokens| >= 1
    ensures ProcessFilters(tokens) == Split(Join(tokens, ','), ',')
    decreases |tokens|
  {
    var t := tokens[0];
    if ',' !in t {
      SplitNoSeparator(t, ',');
    }
    if |tokens| > 1 {
      ProcessFiltersIsSplitOfJoin(tokens[1..]);
      assert tokens == [t] + tokens[1..];
      JoinCons(t, tokens[1..], ',');
      SplitAppend(t, Join(tokens[1..], ','), ',');
    }
  }

  /** The output is the in-order concatenation of each token's pieces. */
  lemma {:induction false} ProcessFiltersAppend(a: seq<string>, b: seq<string>)
    ensures ProcessFilters(a + b) == ProcessFilters(a) + ProcessFilters(b)
    decreases |a|
  {
    if |a| == 0 {
      assert a + b == b;
    } else {
      assert (a + b)[1..] == a[1..] + b;
      ProcessFiltersAppend(a[1..], b);
    }
  }

  /** One token becomes its comma-separated pieces, and joining them with
      commas gives the token back. */
  lemma ProcessFiltersToken(t: string)
    ensures ProcessFilters([t]) == Split(t, ',')
    ensures Join(ProcessFilters([t]), ',') == t
  {
    if ',' !in t {
      SplitNoSeparator(t, ',');
    }
    JoinSplit(t, ',');
  }

  /** Joining the pieces with commas gives back the comma-joined tokens, and a
      token without a comma passes through unchanged. */
  lemma ProcessFiltersJoin(tokens: seq<string>)
    requires |tokens| >= 1
    ensures Join(ProcessFilters(tokens), ',') == Join(tokens, ',')
    ensures (forall i :: 0 <= i < |tokens| ==> ',' !in tokens[i]) ==> ProcessFilters(tokens) == tokens
  {
    ProcessFiltersIsSplitOfJoin(tokens);
    JoinSplit(Join(tokens, ','), ',');
    if forall i :: 0 <= i < |tokens| ==> ',' !in tokens[i] {
      SplitJoin(tokens, ',');
    }
  }

  /** The tokens a command line supplies (src/main.rs:87-91): none without
      `--filters`, and none exactly when the flag carries no argument. */
  function Tokens(flag: Option<seq<string>>): (ts: seq<string>)
    ensures ts == [] <==> flag.None? || flag.value == []
    ensures forall i :: 0 <= i < |ts| ==> ',' !in ts[i]
  {
    if flag.Some? then ProcessFilters(flag.value) else []
  }

  /** What the export command renders can be rendered: every setting when no
      tokens are given, otherwise only the settings the filters select. */
  predicate ExportRenderable(reg: map<string, Value>, flag: Option<seq<string>>) {
    if |Tokens(flag)| > 0 then SelectedRenderable(reg, Filters.ParseFilters(Tokens(flag)))
    else AllRenderable(reg)
  }

  /** The document the export command writes: the filtered export when the
      processed token list is non-empty, the full export otherwise. */
  function Export(reg: map<string, Value>, order: seq<string>, flag: Option<seq<string>>): (doc: T.TomlValue)
    requires Registry.IsEnumeration(order, reg.Keys) && ExportRenderable(reg, flag)
    ensures doc.Table? && T.DeepSorted(doc) && T.DistinctKeys(doc.entries)
    ensures forall n :: n in T.KeysOf(doc.entries) ==> n in reg && Renderable(reg[n]) && T.Lookup(doc.entries, n) == Some(RecordTable(reg[n]))
  {
    var tokens := Tokens(flag);
    if |tokens| > 0 then ToFilteredToml(reg, order, Filters.ParseFilters(tokens)) else ToToml(reg, order)
  }

  /** The export holds a setting exactly when no tokens were given or some
      token's filters accept it. */
  lemma ExportSelects(reg: map<string, Value>, order: seq<string>, flag: Option<seq<string>>, n: string)
    requires Registry.IsEnumeration(order, reg.Keys) && ExportRenderable(reg, flag)
    ensures n in T.KeysOf(Export(reg, order, flag).entries)
        <==> n in reg && (Tokens(flag) == []
                          || exists i :: 0 <= i < |Tokens(flag)|
                               && Filters.AnyAccepts(Filters.ParseToken(Tokens(flag)[i]), n, TypeStr(reg[n])))
  {
    if n in reg {
      Filters.ParseFiltersAccepts(Tokens(flag), n, TypeStr(reg[n]));
    }
  }

  /** Filters that accept every setting give the full export. */
  lemma AcceptAllIsFullExport(reg: map<string, Value>, order: seq<string>, fs: seq<Filters.Filter>)
    requires Registry.IsEnumeration(order, reg.Keys) && AllRenderable(reg)
    requires forall n :: n in reg ==> Filters.AnyAccepts(fs, n, TypeStr(reg[n]))
    ensures ToFilteredToml(reg, order, fs) == ToToml(reg, order)
  {
    var d, full := ToFilteredToml(reg, order, fs), ToToml(reg, order);
    AllSelected(reg, T.KeysOf(d.entries), fs);
    assert T.Sorted(d.entries) && T.Sorted(full.entries);
    TextCodec.SameRecordsSameTable(reg, d.entries, full.entries);
  }

  /** When every setting passes the filters, the selected names are all names. */
  lemma AllSelected(reg: map<string, Value>, ks: set<string>, fs: seq<Filters.Filter>)
    requires forall n :: n in ks <==> n in reg && Filters.AnyAccepts(fs, n, TypeStr(reg[n]))
    requires forall n :: n in reg ==> Filters.AnyAccepts(fs, n, TypeStr(reg[n]))
    ensures ks == reg.Keys
  {
  }

  /** An empty piece, as from `--filters ""` or `a,,b`, becomes a manual filter
      matching every name, so the export is the full one. */
  lemma EmptyPieceExportsAll(reg: map<string, Value>, order: seq<string>, flag: Option<seq<string>>)
    requires Registry.IsEnumeration(order, reg.Keys) && AllRenderable(reg)
    requires "" in Tokens(flag)
    ensures Export(reg, order, flag) == ToToml(reg, order)
  {
    var tokens := Tokens(flag);
    var k :| 0 <= k < |tokens| && tokens[k] == "";
    var fs := Filters.ParseFilters(tokens);
    forall n | n in reg ensures Filters.AnyAccepts(fs, n, TypeStr(reg[n])) {
      Filters.ManualEmptyAcceptsAll(n, TypeStr(reg[n]));
      assert Filters.ParseToken(tokens[k]) == [Filters.Manual("")];
      Filters.ParseFiltersAccepts(tokens, n, TypeStr(reg[n]));
    }
    AcceptAllIsFullExport(reg, order, fs);
  }
}

=== FILE: filters.dfy ===
/** Export filters (src/filters.rs): substring predicates over a setting's
    logical name and kind tag, and the parsing of user-supplied filter tokens. */
module Filters {
  import opened Strings

  datatype Filter = Hitmarkers | Keybindings | Sensitivity | Audio | Manual(pattern: string)

  /** `needle` occurs somewhere in `s`; stated without reference to `Contains`. */
  ghost predicate Occurs(s: string, needle: string) {
    exists i: nat :: OccursAt(s, needle, i)
  }

  function HitmarkersAccepts(input: string, typ: string): (b: bool)
    ensures b <==> Occurs(input, "HitMarker")
  {
    Contains(input, "HitMarker")
  }

  /** Key bindings match on the name or on the kind tag, case-sensitively. */
  function KeybindingsAccepts(input: string, typ: string): (b: bool)
    ensures b <==> Occurs(input, "key") || typ == "key" || Occurs(input, "axis") || typ == "axis"
  {
    Contains(input, "key") || typ == "key" || Contains(input, "axis") || typ == "axis"
  }

  function SensitivityAccepts(input: string, typ: string): (b: bool)
    ensures b <==> Occurs(input, "Sensitivity")
  {
    Contains(input, "Sensitivity")
  }

  function AudioAccepts(input: string, typ: string): (b: bool)
    ensures b <==> Occurs(input, "Volume")
  {
    Contains(input, "Volume")
  }

  function ManualAccepts(pattern: string, input: string, typ: string): (b: bool)
    ensures b <==> Occurs(input, pattern)
  {
    Contains(input, pattern)
  }

  /** `FilterVariant::filter`: the wrapped predicate's verdict. */
  function Accepts(f: Filter, input: string, typ: string): (b: bool)
    ensures f.Hitmarkers? ==> (b <==> Occurs(input, "HitMarker"))
    ensures f.Keybindings? ==> (b <==> Occurs(input, "key") || typ == "key" || Occurs(input, "axis") || typ == "axis")
    ensures f.Sensitivity? ==> (b <==> Occurs(input, "Sensitivity"))
    ensures f.Audio? ==> (b <==> Occurs(input, "Volume"))
    ensures f.Manual? ==> (b <==> Occurs(input, f.pattern))
  {
    match f
    case Hitmarkers => HitmarkersAccepts(input, typ)
    case Keybindings => KeybindingsAccepts(input, typ)
    case Sensitivity => SensitivityAccepts(input, typ)
    case Audio => AudioAccepts(input, typ)
    case Manual(p) => ManualAccepts(p, input, typ)
  }

  /** Only the key-binding filter looks at the kind tag. */
  lemma OnlyKeybindingsReadsTag(f: Filter, input: string, typ: string, typ': string)
    requires !f.Keybindings?
    ensures Accepts(f, input, typ) == Accepts(f, input, typ')
  {
  }

  /** An empty manual pattern accepts every name. */
  lemma ManualEmptyAcceptsAll(input: string, typ: string)
    ensures Accepts(Manual(""), input, typ)
  {
    assert OccursAt(input, "", 0);
  }

  /** Matching is case-sensitive: an upper-case "KEY" is not a key binding. */
  lemma KeybindingsCaseSensitive()
    ensures !Accepts(Keybindings, "KEY", "int")
  {
    forall i: nat ensures !OccursAt("KEY", "key", i) {
      if i == 0 {
        assert "KEY"[0..3][0] != "key"[0];
      }
    }
    assert !Contains("KEY", "axis");
  }

  /** Export's test (`include.iter().any(...)`): some filter accepts. */
  function AnyAccepts(fs: seq<Filter>, input: string, typ: string): (b: bool)
    ensures b <==> exists i :: 0 <= i < |fs| && Accepts(fs[i], input, typ)
  {
    if |fs| == 0 then false
    else if Accepts(fs[0], input, typ) then true
    else
      var b := AnyAccepts(fs[1..], input, typ);
      assert forall i :: 1 <= i < |fs| ==> fs[i] == fs[1..][i - 1];
      b
  }

  /** Combining filter lists selects the union of what each selects. */
  lemma AnyAcceptsUnion(fs: seq<Filter>, gs: seq<Filter>, input: string, typ: string)
    ensures AnyAccepts(fs + gs, input, typ) <==> AnyAccepts(fs, input, typ) || AnyAccepts(gs, input, typ)
  {
    if AnyAccepts(gs, input, typ) {
      var i :| 0 <= i < |gs| && Accepts(gs[i], input, typ);
      assert (fs + gs)[|fs| + i] == gs[i];
    }
    if AnyAccepts(fs, input, typ) {
      var i :| 0 <= i < |fs| && Accepts(fs[i], input, typ);
      assert (fs + gs)[i] == fs[i];
    }
  }

  /** `COMMON_FILTERS`. */
  const COMMON_FILTERS: seq<Filter> := [Hitmarkers, Keybindings, Audio]

  /** The filters one token stands for: a built-in name, the `common` bundle,
      or else a manual substring filter on the token itself. */
  function ParseToken(t: string): (fs: seq<Filter>)
    ensures |fs| == (if t == "common" then 3 else 1)
    ensures t == "common" ==> fs == [Hitmarkers, Keybindings, Audio]
    ensures t !in {"hitmarkers", "keybindings", "sensitivity", "audio", "common"} ==> fs == [Manual(t)]
  {
    if t == "hitmarkers" then [Hitmarkers]
    else if t == "keybindings" then [Keybindings]
    else if t == "sensitivity" then [Sensitivity]
    else if t == "audio" then [Audio]
    else if t == "common" then COMMON_FILTERS
    else [Manual(t)]
  }

  function CountCommon(ts: seq<string>): nat
  {
    if |ts| == 0 then 0 else (if ts[0] == "common" then 1 else 0) + CountCommon(ts[1..])
  }

  /** `parse_filters`: each token's filters, in token order. It never fails. */
  function ParseFilters(ts: seq<string>): (fs: seq<Filter>)
    ensures |fs| == |ts| + 2 * CountCommon(ts)
  {
    if |ts| == 0 then [] else ParseToken(ts[0]) + ParseFilters(ts[1..])
  }

  /** Parsing distributes over concatenation of token lists. */
  lemma {:induction false} ParseFiltersAppend(a: seq<string>, b: seq<string>)
    ensures ParseFilters(a + b) == ParseFilters(a) + ParseFilters(b)
    decreases |a|
  {
    if |a| > 0 {
      assert (a + b)[1..] == a[1..] + b;
      ParseFiltersAppend(a[1..], b);
    } else {
      assert a + b == b;
    }
  }

  /** A parsed list accepts an entry exactly when some token's filters do. */
  lemma {:induction false} ParseFiltersAccepts(ts: seq<string>, input: string, typ: string)
    ensures AnyAccepts(ParseFilters(ts), input, typ)
        <==> exists i :: 0 <= i < |ts| && AnyAccepts(ParseToken(ts[i]), input, typ)
    decreases |ts|
  {
    if |ts| > 0 {
      ParseFiltersAccepts(ts[1..], input, typ);
      AnyAcceptsUnion(ParseToken(ts[0]), ParseFilters(ts[1..]), input, typ);
      assert forall i :: 1 <= i < |ts| ==> ts[i] == ts[1..][i - 1];
    }
  }

  /** `common` selects exactly what hit markers, key bindings and audio do together. */
  lemma CommonIsUnion(input: string, typ: string)
    ensures AnyAccepts(ParseToken("common"), input, typ)
        <==> Accepts(Hitmarkers, input, typ) || Accepts(Keybindings, input, typ) || Accepts(Audio, input, typ)
  {
    var fs := ParseToken("common");
    assert fs[0] == Hitmarkers && fs[1] == Keybindings && fs[2] == Audio;
  }

  /** Each built-in name selects exactly what its filter variant selects. */
  lemma BuiltinTokensSelect(input: string, typ: string)
    ensures AnyAccepts(ParseToken("hitmarkers"), input, typ) <==> Accepts(Hitmarkers, input, typ)
    ensures AnyAccepts(ParseToken("keybindings"), input, typ) <==> Accepts(Keybindings, input, typ)
    ensures AnyAccepts(ParseToken("sensitivity"), input, typ) <==> Accepts(Sensitivity, input, typ)
    ensures AnyAccepts(ParseToken("audio"), input, typ) <==> Accepts(Audio, input, typ)
  {
  }

  /** `--filters audio` selects exactly the settings whose name contains "Volume". */
  lemma AudioTokenSelectsVolume(input: string, typ: string)
    ensures AnyAccepts(ParseFilters(["audio"]), input, typ) <==> Occurs(input, "Volume")
  {
    ParseFiltersAccepts(["audio"], input, typ);
    BuiltinTokensSelect(input, typ);
  }

  /** Built-in names are case-sensitive: "Audio" becomes a manual filter. */
  lemma ParseTokenCaseSensitive()
    ensures ParseFilters(["Audio"]) == [Manual("Audio")]
  {
  }
}

=== FILE: keys.dfy ===
/** Textual form of a key binding (`Key::to_key_ascii` / `Key::from_key_ascii`,
    src/battlebit.rs): a key code is written as the character itself, and read back
    either from its first character or from a `\u`-prefixed hexadecimal escape. */
module Keys {
  import opened Wrappers
  import opened Bytes
  import opened Utf8

  /** The failure kinds of `u32::from_str_radix`. */
  datatype IntErrorKind = Empty | InvalidDigit | PosOverflow

  datatype KeyError =
    | ParseInt(kind: IntErrorKind)   // the escape's digits are not a u32 in hexadecimal
    | NotAChar                       // "Failed to convert u32 to char"
    | NoChar                         // "No char found"

  const ESCAPE: string := "\\u"

  function HexDigit(c: char): Option<nat>
  {
    if '0' <= c <= '9' then Some(c as int - '0' as int)
    else if 'a' <= c <= 'f' then Some(c as int - 'a' as int + 10)
    else if 'A' <= c <= 'F' then Some(c as int - 'A' as int + 10)
    else None
  }

  /** Accumulates hexadecimal digits left to right onto `acc`, failing on a
      non-digit or as soon as the value leaves the u32 range. */
  function ParseDigits(ds: string, acc: nat): (r: Result<nat, IntErrorKind>)
    requires acc < TWO_32
    ensures r.Ok? ==> r.value < TWO_32
    ensures r.Ok? ==> forall i :: 0 <= i < |ds| ==> HexDigit(ds[i]).Some?
    decreases |ds|
  {
    if |ds| == 0 then Ok(acc)
    else
      match HexDigit(ds[0])
      case None => Err(InvalidDigit)
      case Some(d) =>
        if acc * 16 + d >= TWO_32 then Err(PosOverflow)
        else
          var r := ParseDigits(ds[1..], acc * 16 + d);
          assert r.Ok? ==> forall i :: 1 <= i < |ds| ==> ds[i] == ds[1..][i - 1];
          r
  }

  /** `u32::from_str_radix(s, 16)`: an optional leading `+`, then at least one
      hexadecimal digit of either case, with a value below 2^32. */
  function ParseHexU32(s: string): (r: Result<nat, IntErrorKind>)
    ensures r.Ok? ==> r.value < TWO_32
    ensures s == "" ==> r == Err(Empty)
    ensures |s| > 0 && s[0] != '+' && r.Ok? ==> forall i :: 0 <= i < |s| ==> HexDigit(s[i]).Some?
  {
    if |s| == 0 then Err(Empty)
    else if (s[0] == '+' || s[0] == '-') && |s| == 1 then Err(InvalidDigit)
    else if s[0] == '+' then ParseDigits(s[1..], 0)
    else ParseDigits(s, 0)
  }

  /** Removes every leading repetition of `p` (`str::trim_start_matches`). */
  function TrimStartMatches(s: string, p: string): (r: string)
    requires |p| > 0
    ensures !(p <= r)
    ensures |r| <= |s| && r == s[|s| - |r|..]
    decreases |s|
  {
    if p <= s then TrimStartMatches(s[|p|..], p) else s
  }

  /** `Key::to_key_ascii`: the key code as a one-character string. The source
      converts without checking, which is undefined for a code that is not a
      Unicode scalar value, so such codes are excluded here. */
  function ToKeyAscii(code: i32): (r: string)
    requires IsScalar(code)
    ensures |r| == 1 && r[0] as int == code
  {
    [code as char]
  }

  /** `Key::from_key_ascii`. */
  function FromKeyAscii(s: string): (r: Result<i32, KeyError>)
    ensures r.Ok? ==> IsScalar(r.value)
    ensures s == "" ==> r == Err(NoChar)
    ensures |s| > 0 && !(ESCAPE <= s) ==> r == Ok(s[0] as int)
    ensures ESCAPE <= s ==> r != Err(NoChar)
  {
    if ESCAPE <= s then
      match ParseHexU32(TrimStartMatches(s, ESCAPE))
      case Err(e) => Err(ParseInt(e))
      case Ok(v) => if IsScalar(v) then Ok(v) else Err(NotAChar)
    else if |s| == 0 then Err(NoChar)
    else Ok(s[0] as int)
  }

  /** Every valid key code survives the trip through its text form. */
  lemma KeyAsciiRoundTrip(code: i32)
    requires IsScalar(code)
    ensures FromKeyAscii(ToKeyAscii(code)) == Ok(code)
  {
  }

  /** An escape yields exactly the scalar value its digits denote. */
  lemma FromKeyAsciiEscape(digits: string, v: nat)
    requires |digits| > 0 && digits[0] != '\\' && digits[0] != '+'
    requires ParseHexU32(digits) == Ok(v)
    ensures FromKeyAscii(ESCAPE + digits) == (if IsScalar(v) then Ok(v) else Err(NotAChar))
  {
    var s := ESCAPE + digits;
    assert s[2..] == digits;
    assert !(ESCAPE <= digits);
    assert TrimStartMatches(s, ESCAPE) == digits;
  }

  function HexChar(d: nat): char
    requires d < 16
  {
    "0123456789abcdef"[d]
  }

  /** Lower-case hexadecimal without padding, the canonical `\u` escape digits. */
  function LowerHex(n: nat): (r: string)
    ensures |r| > 0 && r[0] != '\\' && r[0] != '+'
    decreases n
  {
    if n < 16 then [HexChar(n)] else LowerHex(n / 16) + [HexChar(n % 16)]
  }

  lemma {:induction false} ParseDigitsAppend(a: string, b: string, acc: nat)
    requires acc < TWO_32
    ensures ParseDigits(a + b, acc) ==
      match ParseDigits(a, acc)
      case Err(e) => Err(e)
      case Ok(x) => ParseDigits(b, x)
    decreases |a|
  {
    if |a| > 0 {
      assert (a + b)[0] == a[0];
      assert (a + b)[1..] == a[1..] + b;
      match HexDigit(a[0])
      case None =>
      case Some(d) =>
        if acc * 16 + d < TWO_32 {
          ParseDigitsAppend(a[1..], b, acc * 16 + d);
        }
    } else {
      assert a + b == b;
    }
  }

  lemma HexDigitOfHexChar(d: nat)
    requires d < 16
    ensures HexDigit(HexChar(d)) == Some(d)
  {
    var c := HexChar(d);
    if d < 10 {
      assert c as int == '0' as int + d;
    } else {
      assert c as int == 'a' as int + d - 10;
    }
  }

  lemma {:induction false} ParseDigitsLowerHex(n: nat)
    requires n < TWO_32
    ensures ParseDigits(LowerHex(n), 0) == Ok(n)
    decreases n
  {
    if n < 16 {
      ParseOneDigit(n, 0);
    } else {
      ParseDigitsLowerHex(n / 16);
      ParseDigitsAppend(LowerHex(n / 16), [HexChar(n % 16)], 0);
      ParseOneDigit(n % 16, n / 16);
      assert n / 16 * 16 + n % 16 == n;
    }
  }

  /** One more digit shifts the accumulator by a hexadecimal place. */
  lemma ParseOneDigit(d: nat, acc: nat)
    requires d < 16 && acc * 16 + d < TWO_32
    ensures ParseDigits([HexChar(d)], acc) == Ok(acc * 16 + d)
  {
    HexDigitOfHexChar(d);
    assert [HexChar(d)][1..] == [];
  }

  /** The canonical escape digits of any u32 parse back to it. */
  lemma ParseLowerHex(n: nat)
    requires n < TWO_32
    ensures ParseHexU32(LowerHex(n)) == Ok(n)
  {
    ParseDigitsLowerHex(n);
  }

  /** The escaped form of every valid key code reads back as that code; for
      U+1F600 the escape is a backslash, `u` and `1f600`. */
  lemma EscapeRoundTrip(code: i32)
    requires IsScalar(code)
    ensures FromKeyAscii(ESCAPE + LowerHex(code)) == Ok(code)
  {
    ParseLowerHex(code);
    FromKeyAsciiEscape(LowerHex(code), code);
  }

  /** A surrogate escape is refused by the checked character conversion. */
  lemma SurrogateEscapeRefused()
    ensures FromKeyAscii(ESCAPE + "d800") == Err(NotAChar)
  {
    var ds := "d800";
    assert ParseDigits(ds[3..], 0xd80) == Ok(0xd800);
    assert ParseDigits(ds[2..], 0xd8) == Ok(0xd800);
    assert ParseDigits(ds[1..], 0xd) == Ok(0xd800);
    assert ParseDigits(ds, 0) == Ok(0xd800);
    FromKeyAsciiEscape(ds, 0xd800);
  }

  // ----- the value of an accepted escape -----

  /** Every character is a hexadecimal digit of either case. */
  predicate AllHex(ds: string) {
    forall i :: 0 <= i < |ds| ==> HexDigit(ds[i]).Some?
  }

  function Pow16(n: nat): (p: nat)
    ensures p >= 1
  {
    if n == 0 then 1 else 16 * Pow16(n - 1)
  }

  /** The number a digit string denotes in positional notation, most
      significant digit first, with no bound on its size. */
  function HexValue(ds: string): nat
    requires AllHex(ds)
    decreases |ds|
  {
    if |ds| == 0 then 0
    else
      var rest := ds[1..];
      assert forall i :: 0 <= i < |rest| ==> rest[i] == ds[i + 1];
      HexDigit(ds[0]).value * Pow16(|ds| - 1) + HexValue(rest)
  }

  /** The digits `u32::from_str_radix` reads: everything after one leading `+`. */
  function Digits(s: string): string {
    if |s| > 0 && s[0] == '+' then s[1..] else s
  }

  /** Peeling off the leading digit moves it into the accumulator. */
  lemma HexValueCons(ds: string, acc: nat)
    requires |ds| > 0 && AllHex(ds)
    ensures AllHex(ds[1..])
    ensures var d := HexDigit(ds[0]).value;
      && acc * Pow16(|ds|) + HexValue(ds) == (acc * 16 + d) * Pow16(|ds| - 1) + HexValue(ds[1..])
      && acc * Pow16(|ds|) + HexValue(ds) >= acc * 16 + d
  {
    var rest := ds[1..];
    assert forall i :: 0 <= i < |rest| ==> rest[i] == ds[i + 1];
    ShiftDigit(acc, HexDigit(ds[0]).value, Pow16(|ds| - 1), HexValue(rest));
  }

  lemma ShiftDigit(acc: nat, d: nat, p: nat, h: nat)
    requires p >= 1
    ensures acc * (16 * p) + (d * p + h) == (acc * 16 + d) * p + h
    ensures (acc * 16 + d) * p + h >= acc * 16 + d
  {
    var a := acc * 16 + d;
    assert a * p == a + a * (p - 1);
    assert acc * (16 * p) == acc * 16 * p;
  }

  /** Over hexadecimal digits, the accumulating parse yields the positional
      value, or an overflow when it reaches 2^32. */
  lemma {:induction false} ParseDigitsValue(ds: string, acc: nat)
    requires acc < TWO_32 && AllHex(ds)
    ensures var v := acc * Pow16(|ds|) + HexValue(ds);
      ParseDigits(ds, acc) == (if v < TWO_32 then Ok(v) else Err(PosOverflow))
    decreases |ds|
  {
    if |ds| > 0 {
      var d := HexDigit(ds[0]).value;
      HexValueCons(ds, acc);
      if acc * 16 + d < TWO_32 {
        ParseDigitsValue(ds[1..], acc * 16 + d);
      }
    }
  }

  /** A parse meeting a non-digit at `k` reports it, unless the digits before
      it already overflow. */
  lemma {:induction false} ParseDigitsInvalid(ds: string, acc: nat, k: nat)
    requires acc < TWO_32 && k < |ds| && AllHex(ds[..k]) && HexDigit(ds[k]).None?
    ensures var v := acc * Pow16(k) + HexValue(ds[..k]);
      ParseDigits(ds, acc) == (if v < TWO_32 then Err(InvalidDigit) else Err(PosOverflow))
    decreases k
  {
    if k > 0 {
      assert ds[..k][0] == ds[0];
      var d := HexDigit(ds[0]).value;
      HexValueCons(ds[..k], acc);
      assert ds[..k][1..] == ds[1..][..k - 1];
      if acc * 16 + d < TWO_32 {
        ParseDigitsInvalid(ds[1..], acc * 16 + d, k - 1);
      }
    }
  }

  /** `u32::from_str_radix(s, 16)` accepts exactly a non-empty run of
      hexadecimal digits of either case, after at most one `+`, whose value is
      below 2^32, and yields that value. */
  lemma ParseHexU32Value(s: string, v: nat)
    ensures ParseHexU32(s) == Ok(v)
        <==> |Digits(s)| > 0 && AllHex(Digits(s)) && HexValue(Digits(s)) == v && v < TWO_32
  {
    var ds := Digits(s);
    if |ds| > 0 && AllHex(ds) {
      ParseDigitsValue(ds, 0);
    }
  }

  /** The errors `u32::from_str_radix(s, 16)` reports: a lone sign is an
      invalid digit, too large a value overflows, and otherwise the first
      non-digit is reported unless the digits before it already overflow. */
  lemma ParseHexU32Errors(s: string, k: nat)
    ensures s == "+" || s == "-" ==> ParseHexU32(s) == Err(InvalidDigit)
    ensures |Digits(s)| > 0 && AllHex(Digits(s)) && HexValue(Digits(s)) >= TWO_32 ==>
      ParseHexU32(s) == Err(PosOverflow)
    ensures k < |Digits(s)| && AllHex(Digits(s)[..k]) && HexDigit(Digits(s)[k]).None? ==>
      ParseHexU32(s) == (if HexValue(Digits(s)[..k]) < TWO_32 then Err(InvalidDigit) else Err(PosOverflow))
  {
    var ds := Digits(s);
    if |ds| > 0 && AllHex(ds) {
      ParseDigitsValue(ds, 0);
    }
    if k < |ds| && AllHex(ds[..k]) && HexDigit(ds[k]).None? && s != "-" {
      ParseDigitsInvalid(ds, 0, k);
    }
  }

  /** Every leading escape prefix is stripped before the digits are read. */
  lemma TrimEscape(t: string)
    ensures TrimStartMatches(ESCAPE + t, ESCAPE) == TrimStartMatches(t, ESCAPE)
  {
    assert ESCAPE <= ESCAPE + t;
    assert (ESCAPE + t)[|ESCAPE|..] == t;
  }

  /** A `\u`-prefixed key is the scalar value its digits denote, read after
      every repeated `\u` and one optional `+`. */
  lemma FromKeyAsciiEscapeValue(t: string, v: nat)
    ensures var ds := Digits(TrimStartMatches(t, ESCAPE));
      FromKeyAscii(ESCAPE + t) == Ok(v) <==> |ds| > 0 && AllHex(ds) && HexValue(ds) == v && IsScalar(v)
  {
    var u := TrimStartMatches(t, ESCAPE);
    TrimEscape(t);
    ParseHexU32Value(u, v);
  }

  /** An escape whose number is outside the scalar range is refused as no
      character; a malformed number is reported as the parse error. */
  lemma FromKeyAsciiEscapeErrors(t: string, e: IntErrorKind)
    ensures var ds := Digits(TrimStartMatches(t, ESCAPE));
      FromKeyAscii(ESCAPE + t) == Err(NotAChar)
      <==> (|ds| > 0 && AllHex(ds) && HexValue(ds) < TWO_32 && !IsScalar(HexValue(ds)))
    ensures FromKeyAscii(ESCAPE + t) == Err(ParseInt(e)) <==> ParseHexU32(TrimStartMatches(t, ESCAPE)) == Err(e)
  {
    var u := TrimStartMatches(t, ESCAPE);
    var ds := Digits(u);
    TrimEscape(t);
    if |ds| > 0 && AllHex(ds) && HexValue(ds) < TWO_32 {
      ParseHexU32Value(u, HexValue(ds));
    } else if ParseHexU32(u).Ok? {
      ParseHexU32Value(u, ParseHexU32(u).value);
    }
  }

  /** Text not starting with a backslash has no escape prefix to strip. */
  lemma NoEscapePrefix(t: string)
    requires |t| > 0 && t[0] != '\\'
    ensures TrimStartMatches(t, ESCAPE) == t
  {
    assert !(ESCAPE <= t) by { assert t[0] != ESCAPE[0]; }
  }

  /** One more leading digit adds its positional weight. */
  lemma HexStep(c: char, rest: string, d: nat)
    requires HexDigit(c) == Some(d) && AllHex(rest)
    ensures AllHex([c] + rest) && HexValue([c] + rest) == d * Pow16(|rest|) + HexValue(rest)
  {
    var ds := [c] + rest;
    assert ds[0] == c && ds[1..] == rest;
    assert forall i :: 1 <= i < |ds| ==> ds[i] == rest[i - 1];
  }

  /** The digits `1F600` denote U+1F600. */
  lemma HexValue1F600()
    ensures AllHex("1F600") && HexValue("1F600") == 0x1F600
  {
    HexStep('0', "", 0);
    assert ['0'] + "" == "0";
    HexStep('0', "0", 0);
    assert ['0'] + "0" == "00";
    HexStep('6', "00", 6);
    assert ['6'] + "00" == "600";
    assert Pow16(2) == 0x100;
    HexStep('F', "600", 15);
    assert ['F'] + "600" == "F600";
    assert Pow16(3) == 0x1000;
    HexStep('1', "F600", 1);
    assert ['1'] + "F600" == "1F600";
    assert Pow16(4) == 0x10000;
  }

  /** The digits `41` and `0041` denote 0x41. */
  lemma HexValue41()
    ensures AllHex("41") && HexValue("41") == 0x41
    ensures AllHex("0041") && HexValue("0041") == 0x41
  {
    HexStep('1', "", 1);
    assert ['1'] + "" == "1";
    HexStep('4', "1", 4);
    assert ['4'] + "1" == "41";
    HexStep('0', "41", 0);
    assert ['0'] + "41" == "041";
    HexStep('0', "041", 0);
    assert ['0'] + "041" == "0041";
  }

  /** Upper-case digits read like lower-case ones: the escape for U+1F600. */
  lemma EscapeUpperCase()
    ensures FromKeyAscii(ESCAPE + "1F600") == Ok(0x1F600)
  {
    HexValue1F600();
    NoEscapePrefix("1F600");
    FromKeyAsciiEscapeValue("1F600", 0x1F600);
  }

  /** Leading zeros do not change the number. */
  lemma EscapeLeadingZeros()
    ensures FromKeyAscii(ESCAPE + "0041") == Ok(0x41)
  {
    HexValue41();
    NoEscapePrefix("0041");
    FromKeyAsciiEscapeValue("0041", 0x41);
  }

  /** A leading `+` does not change the number. */
  lemma EscapePlusSign()
    ensures FromKeyAscii(ESCAPE + "+41") == Ok(0x41)
  {
    HexValue41();
    NoEscapePrefix("+41");
    assert Digits("+41") == "41";
    FromKeyAsciiEscapeValue("+41", 0x41);
  }

  /** A second `\u` prefix changes nothing: all repetitions are stripped. */
  lemma EscapeStripsRepeats(t: string)
    ensures FromKeyAscii(ESCAPE + (ESCAPE + t)) == FromKeyAscii(ESCAPE + t)
  {
    TrimEscape(ESCAPE + t);
    TrimEscape(t);
    assert ESCAPE <= ESCAPE + (ESCAPE + t);
    assert ESCAPE <= ESCAPE + t;
  }

  /** A repeated `\u` prefix is stripped as a whole. */
  lemma EscapeRepeatedPrefix()
    ensures FromKeyAscii(ESCAPE + (ESCAPE + "41")) == Ok(0x41)
  {
    HexValue41();
    NoEscapePrefix("41");
    FromKeyAsciiEscapeValue("41", 0x41);
    EscapeStripsRepeats("41");
  }
}

=== FILE: registry.dfy ===
/** The in-memory registry snapshot and staging of writes (`State`,
    `resolve_regedit_name`, `update_registry`; src/battlebit.rs:205-275). */
module Registry {
  import opened Wrappers
  import opened Strings
  import opened Values
  import RegNames

  /** `originalKeys`: every raw name seen when the registry was read, in
      enumeration order; `registry`: the decoded values by logical name;
      `updated`: values staged for writing, by raw name. */
  datatype State = State(
    originalKeys: seq<string>,
    registry: map<string, Value>,
    updated: map<string, Value>)

  /** The name resolution starts from: colour, key and axis names already
      carry their tag; every other kind gets `_<kind tag>` appended. */
  function Candidate(name: string, v: Value): string {
    if v.Color? || v.Key? || v.Axis? then name else name + "_" + TypeStr(v)
  }

  /** `keys[i]` is the first key containing `cand`. */
  predicate IsFirstMatch(keys: seq<string>, cand: string, i: int) {
    0 <= i < |keys| && Contains(keys[i], cand)
    && forall j :: 0 <= j < i ==> !Contains(keys[j], cand)
  }

  /** The first index at or after `from` whose key contains `cand`. */
  function FirstContainingFrom(keys: seq<string>, cand: string, from: nat): (r: Option<nat>)
    requires from <= |keys|
    ensures r.Some? ==> from <= r.value < |keys| && Contains(keys[r.value], cand)
    ensures r.Some? ==> forall j :: from <= j < r.value ==> !Contains(keys[j], cand)
    ensures r.None? ==> forall j :: from <= j < |keys| ==> !Contains(keys[j], cand)
    decreases |keys| - from
  {
    if from == |keys| then None
    else if Contains(keys[from], cand) then Some(from)
    else FirstContainingFrom(keys, cand, from + 1)
  }

  /** `resolve_regedit_name`: the first original key that contains the
      candidate, or the candidate itself when none does. */
  function ResolveRegeditName(keys: seq<string>, name: string, v: Value): (r: string)
    ensures r == Candidate(name, v) || r in keys
  {
    var cand := Candidate(name, v);
    match FirstContainingFrom(keys, cand, 0)
    case Some(i) => keys[i]
    case None => cand
  }

  /** Resolution returns the first original key containing the candidate, or
      the candidate itself exactly when no original key contains it; either way
      the result contains the candidate. */
  lemma ResolveSpec(keys: seq<string>, name: string, v: Value)
    ensures var r := ResolveRegeditName(keys, name, v);
      var cand := Candidate(name, v);
      && Contains(r, cand)
      && ((exists i :: IsFirstMatch(keys, cand, i) && r == keys[i])
          || (r == cand && forall i :: 0 <= i < |keys| ==> !Contains(keys[i], cand)))
  {
    var cand := Candidate(name, v);
    match FirstContainingFrom(keys, cand, 0)
    case Some(i) =>
      assert IsFirstMatch(keys, cand, i);
    case None =>
      assert cand == cand + "";
      ContainsPrefix(cand, cand);
  }

  lemma {:induction false} FirstContainingFromMatch(keys: seq<string>, cand: string, from: nat, i: nat)
    requires from <= i < |keys| && Contains(keys[i], cand)
    requires forall j :: from <= j < i ==> !Contains(keys[j], cand)
    ensures FirstContainingFrom(keys, cand, from) == Some(i)
    decreases i - from
  {
    if from < i {
      FirstContainingFromMatch(keys, cand, from + 1, i);
    }
  }

  /** Resolution picks the first original key containing the candidate. */
  lemma ResolveFirstMatch(keys: seq<string>, name: string, v: Value, i: nat)
    requires IsFirstMatch(keys, Candidate(name, v), i)
    ensures ResolveRegeditName(keys, name, v) == keys[i]
  {
    FirstContainingFromMatch(keys, Candidate(name, v), 0, i);
  }

  /** When some original key contains the candidate, resolution always lands on
      an original key, never on the freshly built name. */
  lemma ResolveStable(keys: seq<string>, name: string, v: Value, k: string)
    requires k in keys && Contains(k, Candidate(name, v))
    ensures ResolveRegeditName(keys, name, v) in keys
    ensures Contains(ResolveRegeditName(keys, name, v), Candidate(name, v))
  {
    ResolveSpec(keys, name, v);
  }

  /** `update_registry`: stages `v` at the resolved raw name; nothing else in
      the state changes. */
  function UpdateRegistry(st: State, name: string, v: Value): (st': State)
    ensures st'.originalKeys == st.originalKeys && st'.registry == st.registry
    ensures var k := ResolveRegeditName(st.originalKeys, name, v);
      && st'.updated.Keys == st.updated.Keys + {k}
      && st'.updated[k] == v
      && forall k' :: k' in st.updated && k' != k ==> st'.updated[k'] == st.updated[k']
  {
    st.(updated := st.updated[ResolveRegeditName(st.originalKeys, name, v) := v])
  }

  /** The raw name a decoded entry is written back to. */
  function Target(keys: seq<string>, decoded: map<string, Value>, n: string): string
    requires n in decoded
  {
    ResolveRegeditName(keys, n, decoded[n])
  }

  /** Inserts each (raw name, value) write in turn; a later write to the same
      name replaces an earlier one. */
  function InsertAll(m: map<string, Value>, ws: seq<(string, Value)>): map<string, Value>
    decreases |ws|
  {
    if |ws| == 0 then m else InsertAll(m[ws[0].0 := ws[0].1], ws[1..])
  }

  /** The names written by `ws`. */
  function WrittenNames(ws: seq<(string, Value)>): set<string> {
    set i | 0 <= i < |ws| :: ws[i].0
  }

  lemma {:induction false} InsertAllKeys(m: map<string, Value>, ws: seq<(string, Value)>)
    ensures InsertAll(m, ws).Keys == m.Keys + WrittenNames(ws)
    ensures forall k :: k in m && k !in WrittenNames(ws) ==> InsertAll(m, ws)[k] == m[k]
    decreases |ws|
  {
    if |ws| > 0 {
      InsertAllKeys(m[ws[0].0 := ws[0].1], ws[1..]);
      assert WrittenNames(ws) == {ws[0].0} + WrittenNames(ws[1..]) by {
        forall x | x in WrittenNames(ws) ensures x in {ws[0].0} + WrittenNames(ws[1..]) {
          var i :| 0 <= i < |ws| && ws[i].0 == x;
          if i > 0 {
            assert ws[1..][i - 1] == ws[i];
          }
        }
        forall x | x in WrittenNames(ws[1..]) ensures x in WrittenNames(ws) {
          var i :| 0 <= i < |ws[1..]| && ws[1..][i].0 == x;
          assert ws[i + 1] == ws[1..][i];
        }
      }
    }
  }

  lemma {:induction false} InsertAllLastWins(m: map<string, Value>, ws: seq<(string, Value)>, i: nat)
    requires i < |ws|
    requires forall j :: i < j < |ws| ==> ws[j].0 != ws[i].0
    ensures ws[i].0 in InsertAll(m, ws) && InsertAll(m, ws)[ws[i].0] == ws[i].1
    decreases |ws|
  {
    var m' := m[ws[0].0 := ws[0].1];
    if i == 0 {
      InsertAllKeys(m', ws[1..]);
    } else {
      forall j | i - 1 < j < |ws[1..]| ensures ws[1..][j].0 != ws[1..][i - 1].0 {
        assert ws[1..][j] == ws[j + 1];
      }
      InsertAllLastWins(m', ws[1..], i - 1);
    }
  }

  /** The (raw name, value) writes the decoded entries turn into, in `order`. */
  function Writes(keys: seq<string>, decoded: map<string, Value>, order: seq<string>): (ws: seq<(string, Value)>)
    requires forall i :: 0 <= i < |order| ==> order[i] in decoded
    ensures |ws| == |order|
  {
    seq(|order|, i requires 0 <= i < |order| => (Target(keys, decoded, order[i]), decoded[order[i]]))
  }

  /** Stages every decoded entry, in the order given by `order`, one
      `update_registry` call each (src/toml.rs:125-127). */
  function Stage(st: State, decoded: map<string, Value>, order: seq<string>): (st': State)
    requires forall i :: 0 <= i < |order| ==> order[i] in decoded
    ensures st'.originalKeys == st.originalKeys && st'.registry == st.registry
    decreases |order|
  {
    if |order| == 0 then st
    else Stage(UpdateRegistry(st, order[0], decoded[order[0]]), decoded, order[1..])
  }

  lemma WritesTail(keys: seq<string>, decoded: map<string, Value>, order: seq<string>)
    requires forall i :: 0 <= i < |order| ==> order[i] in decoded
    requires |order| > 0
    ensures var ws := Writes(keys, decoded, order);
      && ws[0] == (Target(keys, decoded, order[0]), decoded[order[0]])
      && ws[1..] == Writes(keys, decoded, order[1..])
  {
    var ws := Writes(keys, decoded, order);
    var tail := Writes(keys, decoded, order[1..]);
    WritesAt(keys, decoded, order, 0);
    assert ws[1..] == tail by {
      forall i | 0 <= i < |tail| ensures ws[1..][i] == tail[i] {
        WritesAt(keys, decoded, order, i + 1);
        WritesAt(keys, decoded, order[1..], i);
        assert order[1..][i] == order[i + 1];
      }
    }
  }

  lemma WritesAt(keys: seq<string>, decoded: map<string, Value>, order: seq<string>, i: nat)
    requires forall i :: 0 <= i < |order| ==> order[i] in decoded
    requires i < |order|
    ensures Writes(keys, decoded, order)[i] == (Target(keys, decoded, order[i]), decoded[order[i]])
  {
  }

  /** Staging is inserting the writes in order. */
  lemma {:induction false} StageInsertsWrites(st: State, decoded: map<string, Value>, order: seq<string>)
    requires forall i :: 0 <= i < |order| ==> order[i] in decoded
    ensures Stage(st, decoded, order).updated == InsertAll(st.updated, Writes(st.originalKeys, decoded, order))
    decreases |order|
  {
    if |order| > 0 {
      var next := UpdateRegistry(st, order[0], decoded[order[0]]);
      StageInsertsWrites(next, decoded, order[1..]);
      WritesTail(st.originalKeys, decoded, order);
    }
  }

  /** Staging writes exactly the target raw names, leaves every other staged
      value alone, and where several entries resolve to one raw name the last
      one staged wins. */
  lemma StageWrites(st: State, decoded: map<string, Value>, order: seq<string>, i: nat)
    requires forall i :: 0 <= i < |order| ==> order[i] in decoded
    requires i < |order|
    ensures var ws := Writes(st.originalKeys, decoded, order);
      var up := Stage(st, decoded, order).updated;
      && up.Keys == st.updated.Keys + WrittenNames(ws)
      && (forall k :: k in st.updated && k !in WrittenNames(ws) ==> up[k] == st.updated[k])
      && ((forall j :: i < j < |order| ==> ws[j].0 != ws[i].0) ==> up[ws[i].0] == decoded[order[i]])
  {
    var ws := Writes(st.originalKeys, decoded, order);
    StageInsertsWrites(st, decoded, order);
    InsertAllKeys(st.updated, ws);
    if forall j :: i < j < |order| ==> ws[j].0 != ws[i].0 {
      InsertAllLastWins(st.updated, ws, i);
    }
  }

  /** Every decoded entry resolves to a raw name of its own. */
  predicate DistinctTargets(keys: seq<string>, decoded: map<string, Value>) {
    forall n, m :: n in decoded && m in decoded && n != m ==> Target(keys, decoded, n) != Target(keys, decoded, m)
  }

  /** `order` lists every element of `keys` exactly once: one iteration order
      of a hash map whose keys are `keys`. */
  predicate IsEnumeration(order: seq<string>, keys: set<string>) {
    && (forall i, j :: 0 <= i < j < |order| ==> order[i] != order[j])
    && (forall n :: n in order ==> n in keys)
    && (forall n :: n in keys ==> n in order)
  }

  /** Staging writes exactly the target raw names and leaves every other
      staged value alone. */
  lemma StageKeys(st: State, decoded: map<string, Value>, order: seq<string>)
    requires forall i :: 0 <= i < |order| ==> order[i] in decoded
    ensures var ws := Writes(st.originalKeys, decoded, order);
      var up := Stage(st, decoded, order).updated;
      && up.Keys == st.updated.Keys + WrittenNames(ws)
      && (forall k :: k in st.updated && k !in WrittenNames(ws) ==> up[k] == st.updated[k])
  {
    StageInsertsWrites(st, decoded, order);
    InsertAllKeys(st.updated, Writes(st.originalKeys, decoded, order));
  }

  /** The raw names written are the targets of the decoded names, whatever
      the order. */
  lemma WrittenTargets(keys: seq<string>, decoded: map<string, Value>, order: seq<string>, k: string)
    requires IsEnumeration(order, decoded.Keys)
    ensures k in WrittenNames(Writes(keys, decoded, order))
        <==> exists n :: n in decoded && Target(keys, decoded, n) == k
  {
    var ws := Writes(keys, decoded, order);
    if k in WrittenNames(ws) {
      var i :| 0 <= i < |ws| && ws[i].0 == k;
      assert order[i] in decoded && Target(keys, decoded, order[i]) == k;
    }
    if exists n :: n in decoded && Target(keys, decoded, n) == k {
      var n :| n in decoded && Target(keys, decoded, n) == k;
      var i :| 0 <= i < |order| && order[i] == n;
      assert ws[i].0 == k;
    }
  }

  /** With distinct targets, each decoded value ends up at its own target. */
  lemma StagedValue(st: State, decoded: map<string, Value>, order: seq<string>, n: string)
    requires IsEnumeration(order, decoded.Keys) && DistinctTargets(st.originalKeys, decoded)
    requires n in decoded
    ensures var up := Stage(st, decoded, order).updated;
      Target(st.originalKeys, decoded, n) in up && up[Target(st.originalKeys, decoded, n)] == decoded[n]
  {
    var i :| 0 <= i < |order| && order[i] == n;
    StageWrites(st, decoded, order, i);
  }

  /** When no two entries resolve to the same raw name, the staged state does
      not depend on the order the entries are staged in. */
  lemma StageOrderIrrelevant(st: State, decoded: map<string, Value>, o1: seq<string>, o2: seq<string>)
    requires IsEnumeration(o1, decoded.Keys) && IsEnumeration(o2, decoded.Keys)
    requires DistinctTargets(st.originalKeys, decoded)
    ensures Stage(st, decoded, o1) == Stage(st, decoded, o2)
  {
    StagedMapsAgree(st, decoded, o1, o2);
  }

  /** With distinct targets, two enumerations stage the same writes. */
  lemma StagedMapsAgree(st: State, decoded: map<string, Value>, o1: seq<string>, o2: seq<string>)
    requires IsEnumeration(o1, decoded.Keys) && IsEnumeration(o2, decoded.Keys)
    requires DistinctTargets(st.originalKeys, decoded)
    ensures Stage(st, decoded, o1).updated == Stage(st, decoded, o2).updated
  {
    var up1, up2 := Stage(st, decoded, o1).updated, Stage(st, decoded, o2).updated;
    StagedKeysAgree(st, decoded, o1, o2);
    forall k | k in up1 ensures up1[k] == up2[k] {
      StagedValueAgrees(st, decoded, o1, o2, k);
    }
  }

  /** Two enumerations stage the same raw names. */
  lemma StagedKeysAgree(st: State, decoded: map<string, Value>, o1: seq<string>, o2: seq<string>)
    requires IsEnumeration(o1, decoded.Keys) && IsEnumeration(o2, decoded.Keys)
    ensures Stage(st, decoded, o1).updated.Keys == Stage(st, decoded, o2).updated.Keys
  {
    var keys := st.originalKeys;
    var w1, w2 := WrittenNames(Writes(keys, decoded, o1)), WrittenNames(Writes(keys, decoded, o2));
    StageKeys(st, decoded, o1);
    StageKeys(st, decoded, o2);
    forall k ensures k in w1 <==> k in w2 {
      WrittenTargets(keys, decoded, o1, k);
      WrittenTargets(keys, decoded, o2, k);
    }
  }

  /** With distinct targets, two enumerations stage the same value at each
      raw name the first one stages. */
  lemma StagedValueAgrees(st: State, decoded: map<string, Value>, o1: seq<string>, o2: seq<string>, k: string)
    requires IsEnumeration(o1, decoded.Keys) && IsEnumeration(o2, decoded.Keys)
    requires DistinctTargets(st.originalKeys, decoded)
    requires k in Stage(st, decoded, o1).updated
    ensures k in Stage(st, decoded, o2).updated
    ensures Stage(st, decoded, o1).updated[k] == Stage(st, decoded, o2).updated[k]
  {
    var keys := st.originalKeys;
    StagedKeysAgree(st, decoded, o1, o2);
    WrittenTargets(keys, decoded, o1, k);
    if k in WrittenNames(Writes(keys, decoded, o1)) {
      var n :| n in decoded && Target(keys, decoded, n) == k;
      StagedValue(st, decoded, o1, n);
      StagedValue(st, decoded, o2, n);
    } else {
      StageKeys(st, decoded, o1);
      StageKeys(st, decoded, o2);
      WrittenTargets(keys, decoded, o2, k);
    }
  }

  /** The candidate for a value's logical name is the raw name's prefix up to
      and including its tag. */
  lemma CandidateOfLogicalName(b: string, v: Value)
    requires v.Color? ==> 0 <= v.channel <= 3
    ensures Candidate(RegNames.LogicalName(b, v), v) == b + "_" + RegNames.RawTag(v)
  {
  }

  /** Writing back a value read from the registry goes to the raw name it came
      from, provided no earlier original key contains the same candidate. */
  lemma WriteBackTargetsSource(keys: seq<string>, i: nat, b: string, h: string, v: Value)
    requires i < |keys| && '_' !in h && !v.Bool?
    requires v.Color? ==> 0 <= v.channel <= 3
    requires keys[i] == b + "_" + RegNames.RawTag(v) + "_" + h
    requires forall j :: 0 <= j < i ==> !Contains(keys[j], b + "_" + RegNames.RawTag(v))
    ensures RegNames.FromReg(keys[i], ToRegValue(v)) == Ok((RegNames.LogicalName(b, v), v))
    ensures ResolveRegeditName(keys, RegNames.LogicalName(b, v), v) == keys[i]
  {
    RegNames.FromRegRoundTrip(b, h, v);
    var cand := b + "_" + RegNames.RawTag(v);
    CandidateOfLogicalName(b, v);
    assert cand <= keys[i];
    ContainsPrefix(keys[i], cand);
    ResolveFirstMatch(keys, RegNames.LogicalName(b, v), v, i);
  }

  /** Every `Screenmanager…` entry reads back under the empty logical name as an
      integer, so its write-back candidate is `_int`: whichever entry it came
      from, it is staged at the first original key containing `_int`. */
  lemma ScreenManagerWriteBack(t: string, h: string, value: RegValue, keys: seq<string>)
    requires RegNames.SCREEN_MANAGER <= t && '_' !in t && '_' !in h
    ensures var r := RegNames.FromReg(t + "_" + h, value);
      && r.Ok? && r.value.0 == "" && r.value.1.Int?
      && Candidate(r.value.0, r.value.1) == "_int"
      && ResolveRegeditName(keys, r.value.0, r.value.1) == ResolveRegeditName(keys, "", Int(0))
  {
    RegNames.FromRegShortName(t, h, value);
    assert |t| >= |RegNames.SCREEN_MANAGER|;
  }
}

=== FILE: regnames.dfy ===
/** Decoding a raw registry entry into a logical setting name and a value
    (`BattlebitType::from_reg`, src/battlebit.rs:65-145). A raw name is a list of
    `_`-separated tokens whose second-to-last token is the kind tag. */
module RegNames {
  import opened Wrappers
  import opened Bytes
  import opened Utf8
  import opened Strings
  import opened Values

  /** `from_reg` indexes its token list at `length - 2`, which panics for a
      name with a single token; the model returns this instead. */
  datatype Panic = IndexOutOfBounds

  const SCREEN_MANAGER: string := "Screenmanager"
  const I32_TAGS: set<string> := {"int", "axis", "key"}
  const COLOR_TAGS: set<string> := {"r", "g", "b", "a"}

  /** The colour channel tags in channel order: R = 0, G = 1, B = 2, A = 3. */
  const CHANNEL_LETTERS: string := "rgba"

  /** Tags whose logical name keeps the tag as a suffix. */
  const SUFFIXED_TAGS: set<string> := {"axis", "key", "r", "g", "b", "a"}
  const KNOWN_TAGS: set<string> := {"int", "float", "bool", "axis", "key", "r", "g", "b", "a"}

  function ChannelOf(tag: string): (ch: i32)
    requires tag in COLOR_TAGS
    ensures 0 <= ch <= 3
  {
    if tag == "r" then 0 else if tag == "g" then 1 else if tag == "b" then 2 else 3
  }

  function ChannelLetter(ch: i32): (tag: string)
    requires 0 <= ch <= 3
    ensures tag in COLOR_TAGS && ChannelOf(tag) == ch
  {
    [CHANNEL_LETTERS[ch]]
  }

  /** The zero or empty value a malformed blob is replaced by. */
  predicate IsDefault(v: Value) {
    v == Int(0) || v == Float(ZERO_F64) || v == Bool(false) || v == Axis(0) || v == Key(0) || v == Str("")
  }

  /** A 4-byte blob read as a little-endian i32, anything else as 0. */
  function ReadI32(bytes: seq<byte>): i32 {
    if |bytes| == 4 then I32FromLe(bytes) else 0
  }

  /** An 8-byte blob read as a little-endian f64, anything else as 0.0. */
  function ReadF64(bytes: seq<byte>): F64 {
    if |bytes| == 8 then F64FromLe(bytes) else ZERO_F64
  }

  /** The logical name of an entry with kind tag `typ` whose leading tokens
      join to `base`: axis, key and colour settings keep their tag. */
  function TaggedName(base: string, typ: string): (n: string)
    ensures n == (if typ in SUFFIXED_TAGS then base + "_" + typ else base)
  {
    if SCREEN_MANAGER <= typ then base
    else if typ == "axis" then base + "_axis"
    else if typ == "key" then base + "_key"
    else if typ in COLOR_TAGS then base + "_" + typ
    else base
  }

  /** The value of an entry with kind tag `typ` holding `bytes`. */
  function TaggedValue(typ: string, bytes: seq<byte>): (v: Value)
    ensures SCREEN_MANAGER <= typ ==> v.Int?
    ensures typ in KNOWN_TAGS - COLOR_TAGS ==> TypeStr(v) == typ
    ensures typ in COLOR_TAGS ==> (v.Color? <==> |bytes| == 8)
    ensures typ in COLOR_TAGS && v.Color? ==> v.channel == ChannelOf(typ)
    ensures typ in COLOR_TAGS && !v.Color? ==> v == Int(0)
    ensures typ !in KNOWN_TAGS && !(SCREEN_MANAGER <= typ) ==> v.Str?
  {
    if SCREEN_MANAGER <= typ then Int(ReadI32(bytes))
    else if typ == "int" then Int(ReadI32(bytes))
    else if typ == "float" then Float(ReadF64(bytes))
    else if typ == "bool" then Bool(|bytes| == 4 && I32FromLe(bytes) == 1)
    else if typ == "axis" then Axis(ReadI32(bytes))
    else if typ == "key" then Key(ReadI32(bytes))
    else if typ in COLOR_TAGS then
      if |bytes| == 8 then Color(ChannelOf(typ), F64FromLe(bytes)) else Int(0)
    else
      Str(match Decode(bytes) case Some(s) => s case None => "")
  }

  /** A 4-byte blob under an integer tag is read back exactly; any other
      length gives the kind's zero. */
  lemma TaggedI32Bytes(typ: string, bytes: seq<byte>)
    requires SCREEN_MANAGER <= typ || typ in I32_TAGS
    ensures if |bytes| == 4 then ToRegValue(TaggedValue(typ, bytes)).bytes == bytes
            else IsDefault(TaggedValue(typ, bytes))
  {
    if |bytes| == 4 {
      I32BytesRoundTrip(bytes);
    }
  }

  /** An 8-byte blob under the float or a colour tag is read back exactly; a
      float blob of any other length gives 0.0. */
  lemma TaggedF64Bytes(typ: string, bytes: seq<byte>)
    requires typ == "float" || typ in COLOR_TAGS
    ensures |bytes| == 8 ==> ToRegValue(TaggedValue(typ, bytes)).bytes == bytes
    ensures typ == "float" && |bytes| != 8 ==> IsDefault(TaggedValue(typ, bytes))
  {
    assert !(SCREEN_MANAGER <= typ);
    if |bytes| == 8 {
      F64BytesRoundTrip(bytes);
    }
  }

  /** A Bool is true exactly for the 4-byte little-endian 1. */
  lemma TaggedBoolBytes(bytes: seq<byte>)
    ensures TaggedValue("bool", bytes) == Bool(bytes == I32ToLe(1))
  {
    I32RoundTrip(1);
    if |bytes| == 4 {
      I32BytesRoundTrip(bytes);
    }
  }

  /** Text is the blob's UTF-8 decoding, or empty when the blob is not UTF-8. */
  lemma TaggedStrBytes(typ: string, bytes: seq<byte>)
    requires TaggedValue(typ, bytes).Str?
    ensures Decode(bytes).Some? ==> Encode(TaggedValue(typ, bytes).s) == bytes
    ensures Decode(bytes).None? ==> TaggedValue(typ, bytes).s == ""
  {
    if Decode(bytes).Some? {
      EncodeDecode(bytes);
    }
  }

  /** The logical name and value of an entry whose name, split on `_`, has kind
      tag `typ` and leading tokens joining to `base` (src/battlebit.rs:75-143). */
  function DecodeTagged(base: string, typ: string, bytes: seq<byte>): (r: (string, Value))
    ensures r.1.Color? ==> 0 <= r.1.channel <= 3
    ensures (typ in COLOR_TAGS && !r.1.Color?) || r.0 == LogicalName(base, r.1)
  {
    (TaggedName(base, typ), TaggedValue(typ, bytes))
  }

  /** `from_reg`: splits the raw name on `_`, takes the second-to-last token as
      the kind tag and joins the tokens before it back into the base name. */
  function FromReg(key: string, value: RegValue): (r: Result<(string, Value), Panic>)
    ensures r.Err? <==> '_' !in key
  {
    var parts := Split(key, '_');
    SplitPieces(key, '_');
    var n := |parts|;
    if n < 2 then Err(IndexOutOfBounds)
    else Ok(DecodeTagged(Join(parts[..n - 2], '_'), parts[n - 2], value.bytes))
  }

  lemma SplitTagged(b: string, t: string, h: string)
    requires '_' !in t && '_' !in h
    ensures Split(b + "_" + t + "_" + h, '_') == Split(b, '_') + [t, h]
  {
    assert b + "_" + t + "_" + h == b + ['_'] + (t + ['_'] + h);
    SplitAppend(b, t + ['_'] + h, '_');
    SplitAppend(t, h, '_');
    SplitNoSeparator(t, '_');
    SplitNoSeparator(h, '_');
  }

  /** A raw name `<base>_<tag>_<last>` decodes by its tag, under a logical name
      built from `base`: the last token is discarded. */
  lemma FromRegShape(b: string, t: string, h: string, value: RegValue)
    requires '_' !in t && '_' !in h
    ensures FromReg(b + "_" + t + "_" + h, value) == Ok(DecodeTagged(b, t, value.bytes))
  {
    SplitTagged(b, t, h);
    var parts := Split(b + "_" + t + "_" + h, '_');
    assert parts[..|parts| - 2] == Split(b, '_');
    JoinSplit(b, '_');
  }

  /** A raw name with a single `_` has an empty base name. */
  lemma FromRegShortName(t: string, h: string, value: RegValue)
    requires '_' !in t && '_' !in h
    ensures FromReg(t + "_" + h, value) == Ok(DecodeTagged("", t, value.bytes))
  {
    SplitAppend(t, h, '_');
    SplitNoSeparator(t, '_');
    SplitNoSeparator(h, '_');
  }

  /** The tag a value of this kind is stored under. */
  function RawTag(v: Value): string
    requires v.Color? ==> 0 <= v.channel <= 3
  {
    if v.Color? then ChannelLetter(v.channel) else TypeStr(v)
  }

  /** The logical name `from_reg` gives a value of this kind stored under `base`. */
  function LogicalName(base: string, v: Value): string
    requires v.Color? ==> 0 <= v.channel <= 3
  {
    if v.Axis? || v.Key? || v.Color? then base + "_" + RawTag(v) else base
  }

  /** A value's own tag decodes its own encoding back to it. */
  lemma DecodeOwnTag(b: string, v: Value)
    requires !v.Bool? && (v.Color? ==> 0 <= v.channel <= 3)
    ensures DecodeTagged(b, RawTag(v), ToRegValue(v).bytes) == (LogicalName(b, v), v)
  {
    OwnTagValue(v);
  }

  /** The value half of `DecodeOwnTag`. */
  lemma OwnTagValue(v: Value)
    requires !v.Bool? && (v.Color? ==> 0 <= v.channel <= 3)
    ensures TaggedValue(RawTag(v), ToRegValue(v).bytes) == v
  {
    match v
    case Int(i) => OwnTagI32("int", i);
    case Axis(a) => OwnTagI32("axis", a);
    case Key(k) => OwnTagI32("key", k);
    case Float(f) => F64RoundTrip(f);
    case Color(ch, c) => OwnTagColor(ch, c);
    case Str(s) => OwnTagStr(s);
  }

  lemma OwnTagI32(t: string, i: i32)
    requires t in I32_TAGS
    ensures TaggedValue(t, I32ToLe(i)) == (if t == "int" then Int(i) else if t == "axis" then Axis(i) else Key(i))
  {
    I32RoundTrip(i);
    assert !(SCREEN_MANAGER <= t);
  }

  lemma OwnTagColor(ch: i32, c: F64)
    requires 0 <= ch <= 3
    ensures TaggedValue(ChannelLetter(ch), F64ToLe(c)) == Color(ch, c)
  {
    F64RoundTrip(c);
    assert !(SCREEN_MANAGER <= ChannelLetter(ch));
  }

  lemma OwnTagStr(s: string)
    ensures TaggedValue("str", Encode(s)) == Str(s)
  {
    DecodeEncode(s);
    assert !(SCREEN_MANAGER <= "str");
  }

  /** Decoding what `to_reg_value` wrote, under a name carrying the value's tag,
      gives the value back under its logical name — for every kind but Bool. */
  lemma FromRegRoundTrip(b: string, h: string, v: Value)
    requires '_' !in h && !v.Bool?
    requires v.Color? ==> 0 <= v.channel <= 3
    ensures FromReg(b + "_" + RawTag(v) + "_" + h, ToRegValue(v)) == Ok((LogicalName(b, v), v))
  {
    var t := RawTag(v);
    assert '_' !in t;
    FromRegShape(b, t, h, ToRegValue(v));
    DecodeOwnTag(b, v);
  }

  /** The one-byte Bool encoding does not read back: `true` returns as `false`. */
  lemma BoolRoundTripLosesTrue(b: string, h: string, x: bool)
    requires '_' !in h
    ensures FromReg(b + "_bool_" + h, ToRegValue(Bool(x))) == Ok((b, Bool(false)))
  {
    assert b + "_bool_" + h == b + "_" + "bool" + "_" + h;
    FromRegShape(b, "bool", h, ToRegValue(Bool(x)));
  }

  /** A colour blob of the wrong length becomes an Int under the colour's name. */
  lemma ColorWrongLengthIsInt(b: string, t: string, h: string, value: RegValue)
    requires '_' !in h && t in COLOR_TAGS && |value.bytes| != 8
    ensures FromReg(b + "_" + t + "_" + h, value) == Ok((b + "_" + t, Int(0)))
  {
    FromRegShape(b, t, h, value);
  }

  /** An unrecognised tag gives a Str under the base name alone: both the tag
      and the last token are dropped. */
  lemma UnknownTagDropsTokens(b: string, t: string, h: string, value: RegValue)
    requires '_' !in t && '_' !in h && t !in KNOWN_TAGS && !(SCREEN_MANAGER <= t)
    ensures FromReg(b + "_" + t + "_" + h, value).Ok?
    ensures FromReg(b + "_" + t + "_" + h, value).value.0 == b
    ensures FromReg(b + "_" + t + "_" + h, value).value.1.Str?
  {
    FromRegShape(b, t, h, value);
  }

  /** Every colour `from_reg` produces is named after its channel. */
  lemma FromRegColorName(key: string, value: RegValue)
    requires FromReg(key, value).Ok? && FromReg(key, value).value.1.Color?
    ensures var (n, v) := FromReg(key, value).value;
      0 <= v.channel <= 3 && |n| > 0 && n[|n| - 1] == ChannelLetter(v.channel)[0]
  {
  }
}

=== FILE: strings.dfy ===
/** The string operations the settings editor relies on: substring search,
    prefix tests, and splitting on / joining with a single separator character,
    with the behaviour of Rust's `str::contains`, `str::starts_with`,
    `str::split(char)` and `[&str]::join`. */
module Strings {

  /** `t` occurs in `s` starting at index `i`. */
  predicate OccursAt(s: string, t: string, i: nat) {
    i + |t| <= |s| && s[i..i + |t|] == t
  }

  /** Substring search (`str::contains`), scanning left to right. */
  function Contains(s: string, t: string): (b: bool)
    ensures b <==> exists i: nat :: OccursAt(s, t, i)
    decreases |s|
  {
    if |t| > |s| then
      assert forall i: nat :: !OccursAt(s, t, i);
      false
    else if t <= s then
      assert OccursAt(s, t, 0);
      true
    else
      var rest := Contains(s[1..], t);
      OccursAtShift(s, t);
      rest
  }

  lemma OccursAtShift(s: string, t: string)
    requires |s| > 0 && !(t <= s)
    ensures (exists i: nat :: OccursAt(s, t, i)) <==> (exists i: nat :: OccursAt(s[1..], t, i))
  {
    if exists i: nat :: OccursAt(s, t, i) {
      var i: nat :| OccursAt(s, t, i);
      if i == 0 {
        assert false;
      }
      assert s[1..][i - 1..i - 1 + |t|] == s[i..i + |t|];
      assert OccursAt(s[1..], t, i - 1);
    }
    if exists i: nat :: OccursAt(s[1..], t, i) {
      var i: nat :| OccursAt(s[1..], t, i);
      assert s[1..][i..i + |t|] == s[i + 1..i + 1 + |t|];
      assert OccursAt(s, t, i + 1);
    }
  }

  /** A prefix of a string is contained in it. */
  lemma ContainsPrefix(s: string, p: string)
    requires p <= s
    ensures Contains(s, p)
  {
    assert OccursAt(s, p, 0);
  }

  /** Splits `s` at every occurrence of `c`, keeping empty pieces
      (`str::split(char)`); the result is never empty. */
  function Split(s: string, c: char): (r: seq<string>)
    ensures |r| >= 1
    decreases |s|
  {
    if |s| == 0 then [""] else Prepend(s[0], Split(s[1..], c), c)
  }

  /** The pieces of `[x] + s` from the pieces `r` of `s`: a separator starts a
      new empty piece, any other character joins the first piece. */
  function Prepend(x: char, r: seq<string>, c: char): (r': seq<string>)
    requires |r| >= 1
    ensures |r'| >= 1
  {
    if x == c then [""] + r else [[x] + r[0]] + r[1..]
  }

  /** Prepending a character only touches the front pieces. */
  lemma PrependAppend(x: char, r: seq<string>, tail: seq<string>, c: char)
    requires |r| >= 1
    ensures Prepend(x, r + tail, c) == Prepend(x, r, c) + tail
  {
    if x == c {
      assert ([""] + r) + tail == [""] + (r + tail);
    } else {
      assert (r + tail)[1..] == r[1..] + tail;
    }
  }

  /** The pieces of a split are free of the separator, and there is more than
      one piece exactly when the separator occurs. */
  lemma {:induction false} SplitPieces(s: string, c: char)
    ensures |Split(s, c)| == 1 <==> c !in s
    ensures forall i :: 0 <= i < |Split(s, c)| ==> c !in Split(s, c)[i]
    decreases |s|
  {
    if |s| > 0 {
      SplitPieces(s[1..], c);
      assert s == [s[0]] + s[1..];
      var rest := Split(s[1..], c);
      if s[0] != c {
        assert c !in [s[0]] + rest[0];
      }
    }
  }

  /** Concatenates `parts` with `sep` between consecutive parts (`[&str]::join`). */
  function Join(parts: seq<string>, sep: char): string
  {
    if |parts| == 0 then ""
    else if |parts| == 1 then parts[0]
    else parts[0] + [sep] + Join(parts[1..], sep)
  }

  lemma JoinCons(p: string, rest: seq<string>, c: char)
    requires |rest| >= 1
    ensures Join([p] + rest, c) == p + [c] + Join(rest, c)
  {
    assert ([p] + rest)[1..] == rest;
  }

  /** Joining the pieces of a split restores the string. */
  lemma {:induction false} JoinSplit(s: string, c: char)
    ensures Join(Split(s, c), c) == s
    decreases |s|
  {
    if |s| > 0 {
      JoinSplit(s[1..], c);
      var rest := Split(s[1..], c);
      if s[0] == c {
        JoinCons("", rest, c);
      } else if |rest| > 1 {
        assert rest == [rest[0]] + rest[1..];
        JoinCons(rest[0], rest[1..], c);
        JoinCons([s[0]] + rest[0], rest[1..], c);
      }
      assert s == [s[0]] + s[1..];
    }
  }

  /** A string without the separator splits into itself alone. */
  lemma SplitNoSeparator(s: string, c: char)
    requires c !in s
    ensures Split(s, c) == [s]
    decreases |s|
  {
    if |s| > 0 {
      SplitNoSeparator(s[1..], c);
      assert s == [s[0]] + s[1..];
    }
  }

  /** Splitting a string by its first character. */
  lemma SplitCons(x: char, t: string, c: char)
    ensures Split([x] + t, c) == Prepend(x, Split(t, c), c)
  {
    assert ([x] + t)[1..] == t;
  }

  /** Splitting distributes over a separator in the middle. */
  lemma {:induction false} SplitAppend(a: string, b: string, c: char)
    ensures Split(a + [c] + b, c) == Split(a, c) + Split(b, c)
    decreases |a|
  {
    if |a| == 0 {
      assert a + [c] + b == [c] + b;
      SplitCons(c, b, c);
    } else {
      var t := a[1..] + [c] + b;
      SplitAppend(a[1..], b, c);
      SplitCons(a[0], t, c);
      SplitCons(a[0], a[1..], c);
      PrependAppend(a[0], Split(a[1..], c), Split(b, c), c);
      assert [a[0]] + t == a + [c] + b;
      assert [a[0]] + a[1..] == a;
    }
  }

  /** Splitting the join of separator-free pieces gives the pieces back. */
  lemma {:induction false} SplitJoin(parts: seq<string>, c: char)
    requires |parts| >= 1
    requires forall i :: 0 <= i < |parts| ==> c !in parts[i]
    ensures Split(Join(parts, c), c) == parts
    decreases |parts|
  {
    if |parts| == 1 {
      SplitNoSeparator(parts[0], c);
    } else {
      SplitJoin(parts[1..], c);
      SplitAppend(parts[0], Join(parts[1..], c), c);
      SplitNoSeparator(parts[0], c);
      assert parts == [parts[0]] + parts[1..];
    }
  }
}

=== FILE: textcodec.dfy ===
/** Export of the registry to the text document and import back into staged
    writes (src/toml.rs:17-131). Iteration over a hash map is modelled by an
    explicit enumeration of its keys, `order`, since the source does not fix it. */
module TextCodec {
  import opened Wrappers
  import opened Bytes
  import Utf8
  import Keys
  import opened Values
  import T = TomlTree
  import Filters
  import opened Registry
  import RegNames
  import Strings

  /** Why an import fails; the names follow the source's messages. */
  datatype ImportError =
    | Malformed                       // the document is not a table of `{typ, value}` records
    | InvalidInteger
    | InvalidFloat
    | InvalidBool
    | InvalidAxis
    | InvalidColorName
    | InvalidColorValue
    | InvalidKeyValue
    | InvalidKey(cause: Keys.KeyError)
    | InvalidString
    | InvalidType

  /** A `{typ, value}` record of the document (`Entry`, src/toml.rs:11-15). */
  datatype Record = Record(typ: string, value: T.TomlValue)

  predicate AllRenderable(reg: map<string, Value>) {
    forall n :: n in reg ==> Renderable(reg[n])
  }

  /** Every listed name is a setting that `to_toml_value` can render. */
  predicate RenderableAt(reg: map<string, Value>, names: seq<string>) {
    forall i :: 0 <= i < |names| ==> names[i] in reg && Renderable(reg[names[i]])
  }

  /** Every setting some filter in `keep` accepts can be rendered; the
      filtered export renders nothing else. */
  predicate SelectedRenderable(reg: map<string, Value>, keep: seq<Filters.Filter>) {
    forall n :: n in reg && Filters.AnyAccepts(keep, n, TypeStr(reg[n])) ==> Renderable(reg[n])
  }

  // ----- export -----

  /** The record a value is exported as, its fields in serialization order. */
  function RecordTable(v: Value): (t: T.TomlValue)
    requires Renderable(v)
    ensures T.DeepSorted(t)
  {
    T.Table([T.Entry("typ", T.String(TypeStr(v))), T.Entry("value", ToTomlValue(v))])
  }

  /** One table entry per listed name, in the listed order. */
  function Rows(reg: map<string, Value>, names: seq<string>): (es: seq<T.Entry>)
    requires RenderableAt(reg, names)
    ensures |es| == |names|
    ensures forall i :: 0 <= i < |names| ==> es[i] == T.Entry(names[i], RecordTable(reg[names[i]]))
  {
    seq(|names|, i requires 0 <= i < |names| => T.Entry(names[i], RecordTable(reg[names[i]])))
  }

  lemma RowsDistinct(reg: map<string, Value>, names: seq<string>)
    requires RenderableAt(reg, names)
    requires forall i, j :: 0 <= i < j < |names| ==> names[i] != names[j]
    ensures T.DistinctKeys(Rows(reg, names))
  {
  }

  /** Sorting leaves each row's record as it is. */
  lemma SortedRowEntries(reg: map<string, Value>, names: seq<string>)
    requires RenderableAt(reg, names)
    requires forall i, j :: 0 <= i < j < |names| ==> names[i] != names[j]
    ensures T.SortToml(T.Table(Rows(reg, names))).Table?
    ensures T.DistinctKeys(T.SortToml(T.Table(Rows(reg, names))).entries)
    ensures forall e :: e in T.SortToml(T.Table(Rows(reg, names))).entries
              <==> exists i :: 0 <= i < |names| && e == T.Entry(names[i], RecordTable(reg[names[i]]))
  {
    var rows := Rows(reg, names);
    RowsDistinct(reg, names);
    T.SortTableEntries(rows);
    forall i | 0 <= i < |rows| ensures T.SortToml(rows[i].val) == rows[i].val {
      T.SortTomlFixpoint(rows[i].val);
    }
  }

  /** The sorted table of rows for distinct names holds exactly those rows. */
  lemma SortedRows(reg: map<string, Value>, names: seq<string>)
    requires RenderableAt(reg, names)
    requires forall i, j :: 0 <= i < j < |names| ==> names[i] != names[j]
    ensures var doc := T.SortToml(T.Table(Rows(reg, names)));
      && doc.Table? && T.DeepSorted(doc) && T.DistinctKeys(doc.entries)
      && (forall n :: n in T.KeysOf(doc.entries) <==> n in names)
      && (forall n :: n in names ==> T.Lookup(doc.entries, n) == Some(RecordTable(reg[n])))
  {
    SortedRowEntries(reg, names);
    var doc := T.SortToml(T.Table(Rows(reg, names)));
    forall n | n in names ensures T.Lookup(doc.entries, n) == Some(RecordTable(reg[n])) && n in T.KeysOf(doc.entries) {
      var i :| 0 <= i < |names| && names[i] == n;
      assert T.Entry(n, RecordTable(reg[n])) in doc.entries;
      T.LookupDistinct(doc.entries, n, RecordTable(reg[n]));
    }
    forall n | n in T.KeysOf(doc.entries) ensures n in names {
      var e :| e in doc.entries && e.key == n;
      var i :| 0 <= i < |names| && e == T.Entry(names[i], RecordTable(reg[names[i]]));
    }
  }

  /** `to_toml`: every registry entry as `{typ, value}` under its name, sorted. */
  function ToToml(reg: map<string, Value>, order: seq<string>): (doc: T.TomlValue)
    requires IsEnumeration(order, reg.Keys) && AllRenderable(reg)
    ensures doc.Table? && T.DeepSorted(doc) && T.DistinctKeys(doc.entries)
    ensures T.KeysOf(doc.entries) == reg.Keys
    ensures forall n :: n in reg ==> T.Lookup(doc.entries, n) == Some(RecordTable(reg[n]))
  {
    var doc := T.SortToml(T.Table(Rows(reg, order)));
    ExportedKeys(reg, order, doc);
    doc
  }

  /** The full export's rows are those of every registry name. */
  lemma ExportedKeys(reg: map<string, Value>, order: seq<string>, doc: T.TomlValue)
    requires IsEnumeration(order, reg.Keys) && AllRenderable(reg)
    requires doc == T.SortToml(T.Table(Rows(reg, order)))
    ensures doc.Table? && T.DeepSorted(doc) && T.DistinctKeys(doc.entries)
    ensures T.KeysOf(doc.entries) == reg.Keys
    ensures forall n :: n in reg ==> T.Lookup(doc.entries, n) == Some(RecordTable(reg[n]))
  {
    SortedRows(reg, order);
    EnumeratedKeys(T.KeysOf(doc.entries), order, reg.Keys);
  }

  /** A set holding exactly the listed names is the enumerated set. */
  lemma EnumeratedKeys(ks: set<string>, order: seq<string>, keys: set<string>)
    requires IsEnumeration(order, keys)
    requires forall n :: n in ks <==> n in order
    ensures ks == keys
  {
  }

  /** Two exports holding every setting with its record are the same table. */
  lemma SameRecordsSameTable(reg: map<string, Value>, a: seq<T.Entry>, b: seq<T.Entry>)
    requires AllRenderable(reg)
    requires T.Sorted(a) && T.DistinctKeys(a) && T.Sorted(b) && T.DistinctKeys(b)
    requires T.KeysOf(a) == reg.Keys && T.KeysOf(b) == reg.Keys
    requires forall n :: n in reg ==> T.Lookup(a, n) == Some(RecordTable(reg[n]))
    requires forall n :: n in reg ==> T.Lookup(b, n) == Some(RecordTable(reg[n]))
    ensures a == b
  {
    T.SortedTablesEqual(a, b);
  }

  /** The exported document does not depend on the map's iteration order. */
  lemma ToTomlDeterministic(reg: map<string, Value>, o1: seq<string>, o2: seq<string>)
    requires IsEnumeration(o1, reg.Keys) && IsEnumeration(o2, reg.Keys) && AllRenderable(reg)
    ensures ToToml(reg, o1) == ToToml(reg, o2)
  {
    SameRecordsSameTable(reg, ToToml(reg, o1).entries, ToToml(reg, o2).entries);
  }

  /** The names, in iteration order, that at least one filter accepts. */
  function Selected(reg: map<string, Value>, order: seq<string>, keep: seq<Filters.Filter>): (s: seq<string>)
    requires forall i :: 0 <= i < |order| ==> order[i] in reg
    ensures forall n :: n in s <==> n in order && Filters.AnyAccepts(keep, n, TypeStr(reg[n]))
    ensures (forall i, j :: 0 <= i < j < |order| ==> order[i] != order[j])
              ==> forall i, j :: 0 <= i < j < |s| ==> s[i] != s[j]
  {
    if |order| == 0 then []
    else
      var rest := Selected(reg, order[1..], keep);
      assert forall n :: n in order[1..] ==> n in order;
      assert forall n :: n in order <==> n == order[0] || n in order[1..];
      if Filters.AnyAccepts(keep, order[0], TypeStr(reg[order[0]])) then [order[0]] + rest else rest
  }

  /** `to_filtered_toml`: only entries some filter accepts, with the same
      records `to_toml` would give them. */
  function ToFilteredToml(reg: map<string, Value>, order: seq<string>, keep: seq<Filters.Filter>): (doc: T.TomlValue)
    requires IsEnumeration(order, reg.Keys) && SelectedRenderable(reg, keep)
    ensures doc.Table? && T.DeepSorted(doc) && T.DistinctKeys(doc.entries)
    ensures forall n :: n in T.KeysOf(doc.entries)
              <==> n in reg && Filters.AnyAccepts(keep, n, TypeStr(reg[n]))
    ensures forall n :: n in T.KeysOf(doc.entries) ==> T.Lookup(doc.entries, n) == Some(RecordTable(reg[n]))
  {
    var names := Selected(reg, order, keep);
    SortedRows(reg, names);
    T.SortToml(T.Table(Rows(reg, names)))
  }

  /** An audio-only selection over a registry with one volume setting and one
      key binding whose code is a lone surrogate. */
  function SurrogateKeyRegistry(): map<string, Value> {
    map["MasterVolume" := Int(80), "Jump_key" := Key(0xD800)]
  }

  /** The audio filter selects the volume setting and not the key binding,
      which cannot be rendered. */
  lemma AudioSelectsVolumeOnly()
    ensures var reg := SurrogateKeyRegistry();
      && !AllRenderable(reg) && SelectedRenderable(reg, [Filters.Audio])
      && forall n :: n in reg && Filters.AnyAccepts([Filters.Audio], n, TypeStr(reg[n])) <==> n == "MasterVolume"
  {
    var reg := SurrogateKeyRegistry();
    assert !Renderable(reg["Jump_key"]);
    assert Filters.AnyAccepts([Filters.Audio], "MasterVolume", "int") by {
      assert "MasterVolume"[6..] == "Volume";
      assert Strings.OccursAt("MasterVolume", "Volume", 6);
    }
    assert !Filters.AnyAccepts([Filters.Audio], "Jump_key", "key") by {
      NoVolumeInJumpKey();
    }
  }

  /** A setting no filter selects is never rendered, so a key code that is not
      a character does not stop the filtered export of the others. */
  lemma FilteredExportSkipsUnselected()
    ensures SelectedRenderable(SurrogateKeyRegistry(), [Filters.Audio])
    ensures var reg := SurrogateKeyRegistry();
      T.KeysOf(ToFilteredToml(reg, ["MasterVolume", "Jump_key"], [Filters.Audio]).entries) == {"MasterVolume"}
  {
    var reg := SurrogateKeyRegistry();
    AudioSelectsVolumeOnly();
    SurrogateKeyOrder();
    var ks := T.KeysOf(ToFilteredToml(reg, ["MasterVolume", "Jump_key"], [Filters.Audio]).entries);
    assert forall n :: n in ks <==> n == "MasterVolume";
  }

  lemma SurrogateKeyOrder()
    ensures IsEnumeration(["MasterVolume", "Jump_key"], SurrogateKeyRegistry().Keys)
  {
  }

  lemma NoVolumeInJumpKey()
    ensures !Strings.Contains("Jump_key", "Volume")
  {
    forall i: nat | i + 6 <= 8 ensures !Strings.OccursAt("Jump_key", "Volume", i) {
      assert "Jump_key"[i..i + 6][0] == "Jump_key"[i] != 'V';
    }
  }

  /** The filtered export is a sub-table of the full export, and is empty when
      there are no filters. */
  lemma FilteredIsSubTable(reg: map<string, Value>, order: seq<string>, keep: seq<Filters.Filter>)
    requires IsEnumeration(order, reg.Keys) && AllRenderable(reg)
    ensures var f := ToFilteredToml(reg, order, keep).entries;
      var full := ToToml(reg, order).entries;
      && T.KeysOf(f) <= T.KeysOf(full)
      && (forall n :: n in T.KeysOf(f) ==> T.Lookup(f, n) == T.Lookup(full, n))
      && (keep == [] ==> f == [])
  {
  }

  // ----- import -----

  /** Reads a `{typ, value}` record: a table whose `typ` is a string and which
      has a `value`; other fields are ignored. */
  function ParseRecord(v: T.TomlValue): (r: Result<Record, ImportError>)
    ensures r.Ok? ==> v.Table? && T.Lookup(v.entries, "typ") == Some(T.String(r.value.typ))
                      && T.Lookup(v.entries, "value") == Some(r.value.value)
    ensures v.Table? && T.Lookup(v.entries, "typ").Some? && T.Lookup(v.entries, "typ").value.String?
            && T.Lookup(v.entries, "value").Some?
            ==> r == Ok(Record(T.Lookup(v.entries, "typ").value.s, T.Lookup(v.entries, "value").value))
  {
    if !v.Table? then Err(Malformed)
    else
      var typ, value := T.Lookup(v.entries, "typ"), T.Lookup(v.entries, "value");
      if typ.Some? && typ.value.String? && value.Some? then Ok(Record(typ.value.s, value.value))
      else Err(Malformed)
  }

  predicate AllRecords(es: seq<T.Entry>) {
    forall i :: 0 <= i < |es| ==> ParseRecord(es[i].val).Ok?
  }

  /** The record stored under `n`. */
  function RecordAt(es: seq<T.Entry>, n: string): Record
    requires n in T.KeysOf(es) && AllRecords(es)
  {
    var v := T.Lookup(es, n).value;
    assert T.Entry(n, v) in es;
    ParseRecord(v).value
  }

  /** The document read as a map from setting name to record (the `try_into`
      of src/toml.rs:69, approximating the serde conversion). */
  function EntriesOf(doc: T.TomlValue): (r: Result<map<string, Record>, ImportError>)
    ensures r.Ok? <==> doc.Table? && AllRecords(doc.entries)
    ensures r.Ok? ==> r.value.Keys == T.KeysOf(doc.entries)
  {
    if doc.Table? && AllRecords(doc.entries) then
      Ok(map n | n in T.KeysOf(doc.entries) :: RecordAt(doc.entries, n))
    else Err(Malformed)
  }

  /** The TOML value shape each kind tag needs. */
  predicate ShapeMatches(typ: string, v: T.TomlValue) {
    if typ == "int" || typ == "axis" then v.Integer?
    else if typ == "float" || typ == "color" then v.Float?
    else if typ == "bool" then v.Boolean?
    else if typ == "key" || typ == "str" then v.String?
    else false
  }

  /** Decodes one record (src/toml.rs:74-120). A colour's channel comes from
      the last character of its name. */
  function DecodeRecord(name: string, rec: Record): (r: Result<Value, ImportError>)
    ensures r.Ok? ==> TypeStr(r.value) == rec.typ && ShapeMatches(rec.typ, rec.value)
  {
    var v := rec.value;
    if rec.typ == "int" then
      if v.Integer? then Ok(Int(TruncI32(v.i))) else Err(InvalidInteger)
    else if rec.typ == "float" then
      if v.Float? then Ok(Float(v.f)) else Err(InvalidFloat)
    else if rec.typ == "bool" then
      if v.Boolean? then Ok(Bool(v.b)) else Err(InvalidBool)
    else if rec.typ == "axis" then
      if v.Integer? then Ok(Axis(TruncI32(v.i))) else Err(InvalidAxis)
    else if rec.typ == "color" then
      if |name| == 0 then Err(InvalidColorName)
      else
        var last := name[|name| - 1];
        if last == 'r' then (if v.Float? then Ok(Color(0, v.f)) else Err(InvalidColorValue))
        else if last == 'g' then (if v.Float? then Ok(Color(1, v.f)) else Err(InvalidColorValue))
        else if last == 'b' then (if v.Float? then Ok(Color(2, v.f)) else Err(InvalidColorValue))
        else if last == 'a' then (if v.Float? then Ok(Color(3, v.f)) else Err(InvalidColorValue))
        else Err(InvalidColorName)
    else if rec.typ == "key" then
      if !v.String? then Err(InvalidKeyValue)
      else
        match Keys.FromKeyAscii(v.s)
        case Ok(k) => Ok(Key(k))
        case Err(e) => Err(InvalidKey(e))
    else if rec.typ == "str" then
      if v.String? then Ok(Str(v.s)) else Err(InvalidString)
    else Err(InvalidType)
  }

  function IntPayload(v: Value): i32
    requires v.Int? || v.Axis?
  {
    if v.Int? then v.i else v.a
  }

  /** What `DecodeRecord` accepts and what it produces: the kind tag picks the
      value kind and the TOML shape it needs; integers are truncated to 32 bits;
      a colour's channel is the last letter of its name; a key must parse. */
  lemma DecodeRecordSpec(name: string, rec: Record)
    ensures rec.typ !in KIND_TAGS ==> DecodeRecord(name, rec) == Err(InvalidType)
    ensures rec.typ in {"float", "bool", "str"} ==> (DecodeRecord(name, rec).Ok? <==> ShapeMatches(rec.typ, rec.value))
    ensures rec.typ in {"int", "axis"} ==> (DecodeRecord(name, rec).Ok? <==> rec.value.Integer?)
    ensures DecodeRecord(name, rec).Ok? && (DecodeRecord(name, rec).value.Int? || DecodeRecord(name, rec).value.Axis?) ==> (IntPayload(DecodeRecord(name, rec).value) - rec.value.i) % TWO_32 == 0
    ensures rec.typ == "color" ==> (DecodeRecord(name, rec).Ok? <==> rec.value.Float? && |name| > 0 && name[|name| - 1] in RegNames.CHANNEL_LETTERS)
    ensures DecodeRecord(name, rec).Ok? && DecodeRecord(name, rec).value.Color? ==> 0 <= DecodeRecord(name, rec).value.channel <= 3 && name[|name| - 1] == RegNames.CHANNEL_LETTERS[DecodeRecord(name, rec).value.channel] && DecodeRecord(name, rec).value.c == rec.value.f
    ensures rec.typ == "key" ==> (DecodeRecord(name, rec).Ok? <==> rec.value.String? && Keys.FromKeyAscii(rec.value.s).Ok?)
    ensures DecodeRecord(name, rec).Ok? && DecodeRecord(name, rec).value.Key? ==> Utf8.IsScalar(DecodeRecord(name, rec).value.code)
    ensures rec.typ == "key" && DecodeRecord(name, rec).Ok? ==> DecodeRecord(name, rec).value == Key(Keys.FromKeyAscii(rec.value.s).value)
    ensures DecodeRecord(name, rec).Ok? && (DecodeRecord(name, rec).value.Float? || DecodeRecord(name, rec).value.Bool? || DecodeRecord(name, rec).value.Str?) ==> ToTomlValue(DecodeRecord(name, rec).value) == rec.value
  {
  }

  /** A value whose record reads back as itself under `name`: key codes must be
      scalar values and a colour's name must end in its channel's letter. */
  predicate TextSafe(name: string, v: Value) {
    && Renderable(v)
    && (v.Color? ==> 0 <= v.channel <= 3 && |name| > 0 && name[|name| - 1] == RegNames.CHANNEL_LETTERS[v.channel])
  }

  /** Text round trip: decoding the exported record gives the value back. */
  lemma TextRoundTrip(name: string, v: Value)
    requires TextSafe(name, v)
    ensures DecodeRecord(name, Record(TypeStr(v), ToTomlValue(v))) == Ok(v)
  {
    if v.Key? {
      Keys.KeyAsciiRoundTrip(v.code);
    }
  }

  /** Every colour read from the registry can be exported and read back. */
  lemma RegistryColorsAreTextSafe(key: string, value: RegValue)
    requires RegNames.FromReg(key, value).Ok? && RegNames.FromReg(key, value).value.1.Color?
    ensures TextSafe(RegNames.FromReg(key, value).value.0, RegNames.FromReg(key, value).value.1)
  {
    RegNames.FromRegColorName(key, value);
  }

  /** Decodes the records in `order`, stopping at the first failure
      (src/toml.rs:71-123). */
  function DecodeAll(entries: map<string, Record>, order: seq<string>): (r: Result<map<string, Value>, ImportError>)
    requires forall i :: 0 <= i < |order| ==> order[i] in entries
    ensures r.Ok? <==> forall i :: 0 <= i < |order| ==> DecodeRecord(order[i], entries[order[i]]).Ok?
    ensures r.Ok? ==> forall n :: n in r.value <==> n in order
    ensures r.Ok? ==> forall n :: n in r.value ==> DecodeRecord(n, entries[n]) == Ok(r.value[n])
    ensures r.Err? ==> exists i :: 0 <= i < |order| && DecodeRecord(order[i], entries[order[i]]) == Err(r.error)
                                   && forall j :: 0 <= j < i ==> DecodeRecord(order[j], entries[order[j]]).Ok?
    decreases |order|
  {
    if |order| == 0 then Ok(map[])
    else
      assert forall i :: 1 <= i < |order| ==> order[1..][i - 1] == order[i];
      match DecodeRecord(order[0], entries[order[0]])
      case Err(e) => Err(e)
      case Ok(v) =>
        match DecodeAll(entries, order[1..])
        case Err(e) =>
          ghost var i :| 0 <= i < |order[1..]| && DecodeRecord(order[1..][i], entries[order[1..][i]]) == Err(e)
            && forall j :: 0 <= j < i ==> DecodeRecord(order[1..][j], entries[order[1..][j]]).Ok?;
          assert DecodeRecord(order[i + 1], entries[order[i + 1]]) == Err(e);
          Err(e)
        case Ok(m) => Ok(m[order[0] := v])
  }

  /** The outcome of an import: the state afterwards and whether it succeeded. */
  datatype Imported = Imported(state: State, status: Result<(), ImportError>)

  /** `from_toml`: decodes every record into a local map first and stages
      nothing unless all of them decode; then stages each value at its
      resolved raw name. `decodeOrder` and `stageOrder` are the iteration
      orders of the two hash maps involved. */
  function FromToml(st: State, doc: T.TomlValue, decodeOrder: seq<string>, stageOrder: seq<string>): (r: Imported)
    requires doc.Table? ==> IsEnumeration(decodeOrder, T.KeysOf(doc.entries))
    requires doc.Table? ==> IsEnumeration(stageOrder, T.KeysOf(doc.entries))
    ensures r.status.Err? ==> r.state == st
    ensures r.state.originalKeys == st.originalKeys && r.state.registry == st.registry
  {
    match EntriesOf(doc)
    case Err(e) => Imported(st, Err(e))
    case Ok(entries) =>
      match DecodeAll(entries, decodeOrder)
      case Err(e) => Imported(st, Err(e))
      case Ok(decoded) => Imported(Stage(st, decoded, stageOrder), Ok(()))
  }

  predicate AllDecode(entries: map<string, Record>) {
    forall n :: n in entries ==> DecodeRecord(n, entries[n]).Ok?
  }

  /** Every record decoded, by name. */
  function DecodedMap(entries: map<string, Record>): (m: map<string, Value>)
    requires AllDecode(entries)
    ensures m.Keys == entries.Keys
    ensures forall n :: n in m ==> DecodeRecord(n, entries[n]) == Ok(m[n])
  {
    map n | n in entries :: DecodeRecord(n, entries[n]).value
  }

  /** Decoding in any order succeeds exactly when every record decodes, and
      then yields every decoded record. */
  lemma DecodeAllIsDecodedMap(entries: map<string, Record>, order: seq<string>)
    requires IsEnumeration(order, entries.Keys)
    ensures DecodeAll(entries, order).Ok? <==> AllDecode(entries)
    ensures DecodeAll(entries, order).Ok? ==> DecodeAll(entries, order).value == DecodedMap(entries)
  {
    if AllDecode(entries) {
      DecodeAllWhenAllDecode(entries, order);
    } else {
      DecodeAllWhenOneFails(entries, order);
    }
  }

  lemma DecodeAllWhenAllDecode(entries: map<string, Record>, order: seq<string>)
    requires IsEnumeration(order, entries.Keys)
    requires AllDecode(entries)
    ensures DecodeAll(entries, order) == Ok(DecodedMap(entries))
  {
    forall i | 0 <= i < |order| ensures DecodeRecord(order[i], entries[order[i]]).Ok? {
      assert order[i] in entries;
    }
    var r := DecodeAll(entries, order);
    DecodedMapUnique(entries, order, r.value);
  }

  /** A map over exactly the enumerated names holding each one's decoded
      record is the decoded map. */
  lemma DecodedMapUnique(entries: map<string, Record>, order: seq<string>, m: map<string, Value>)
    requires IsEnumeration(order, entries.Keys)
    requires AllDecode(entries)
    requires forall n :: n in m <==> n in order
    requires forall n :: n in m ==> n in entries && DecodeRecord(n, entries[n]) == Ok(m[n])
    ensures m == DecodedMap(entries)
  {
    var d := DecodedMap(entries);
    assert m.Keys == d.Keys;
    forall n | n in m ensures m[n] == d[n] {
      assert DecodeRecord(n, entries[n]) == Ok(m[n]);
    }
  }

  lemma DecodeAllWhenOneFails(entries: map<string, Record>, order: seq<string>)
    requires IsEnumeration(order, entries.Keys)
    requires !AllDecode(entries)
    ensures DecodeAll(entries, order).Err?
  {
    var n :| n in entries && DecodeRecord(n, entries[n]).Err?;
    assert n in order;
    var i :| 0 <= i < |order| && order[i] == n;
    assert !DecodeRecord(order[i], entries[order[i]]).Ok?;
  }

  /** An import succeeds exactly when the document is a table of records that
      all decode, and then stages every decoded record. */
  lemma FromTomlOutcome(st: State, doc: T.TomlValue, decodeOrder: seq<string>, stageOrder: seq<string>)
    requires doc.Table? ==> IsEnumeration(decodeOrder, T.KeysOf(doc.entries))
    requires doc.Table? ==> IsEnumeration(stageOrder, T.KeysOf(doc.entries))
    ensures var r := FromToml(st, doc, decodeOrder, stageOrder);
      && (r.status.Ok? <==> EntriesOf(doc).Ok? && AllDecode(EntriesOf(doc).value))
      && (r.status.Ok? ==> r.state == Stage(st, DecodedMap(EntriesOf(doc).value), stageOrder))
  {
    if EntriesOf(doc).Ok? {
      DecodeAllIsDecodedMap(EntriesOf(doc).value, decodeOrder);
    }
  }

  /** Whether an import succeeds, and the state it leaves, depend on neither
      hash map's iteration order as long as no two records resolve to the same
      raw name; only which error is reported can differ. */
  lemma ImportOrderIrrelevant(st: State, doc: T.TomlValue, d1: seq<string>, s1: seq<string>, d2: seq<string>, s2: seq<string>)
    requires doc.Table?
    requires IsEnumeration(d1, T.KeysOf(doc.entries)) && IsEnumeration(s1, T.KeysOf(doc.entries))
    requires IsEnumeration(d2, T.KeysOf(doc.entries)) && IsEnumeration(s2, T.KeysOf(doc.entries))
    requires (EntriesOf(doc).Ok? && AllDecode(EntriesOf(doc).value))
               ==> DistinctTargets(st.originalKeys, DecodedMap(EntriesOf(doc).value))
    ensures FromToml(st, doc, d1, s1).status.Ok? == FromToml(st, doc, d2, s2).status.Ok?
    ensures FromToml(st, doc, d1, s1).state == FromToml(st, doc, d2, s2).state
  {
    FromTomlOutcome(st, doc, d1, s1);
    FromTomlOutcome(st, doc, d2, s2);
    if EntriesOf(doc).Ok? && AllDecode(EntriesOf(doc).value) {
      var decoded := DecodedMap(EntriesOf(doc).value);
      StageOrderIrrelevant(st, decoded, s1, s2);
    }
  }

  /** One bad record anywhere makes the whole import fail with nothing staged. */
  lemma ImportAllOrNothing(st: State, doc: T.TomlValue, decodeOrder: seq<string>, stageOrder: seq<string>, bad: string)
    requires doc.Table? && IsEnumeration(decodeOrder, T.KeysOf(doc.entries))
    requires IsEnumeration(stageOrder, T.KeysOf(doc.entries))
    requires EntriesOf(doc).Ok? && bad in EntriesOf(doc).value
    requires DecodeRecord(bad, EntriesOf(doc).value[bad]).Err?
    ensures FromToml(st, doc, decodeOrder, stageOrder) == Imported(st, FromToml(st, doc, decodeOrder, stageOrder).status)
    ensures FromToml(st, doc, decodeOrder, stageOrder).status.Err?
  {
    FromTomlOutcome(st, doc, decodeOrder, stageOrder);
  }

  /** An exported record reads back as its kind tag and payload. */
  lemma ParseRecordTable(v: Value)
    requires Renderable(v)
    ensures ParseRecord(RecordTable(v)) == Ok(Record(TypeStr(v), ToTomlValue(v)))
  {
    var es := RecordTable(v).entries;
    assert es[0].key == "typ";
    assert T.Lookup(es, "typ") == Some(T.String(TypeStr(v)));
    assert es[1..][0].key == "value";
    assert T.Lookup(es[1..], "value") == Some(ToTomlValue(v));
  }

  /** The exported document reads back as one record per registry entry,
      holding its kind tag and rendered payload. */
  lemma ExportedRecords(reg: map<string, Value>, order: seq<string>)
    requires IsEnumeration(order, reg.Keys) && AllRenderable(reg)
    ensures EntriesOf(ToToml(reg, order)).Ok?
    ensures EntriesOf(ToToml(reg, order)).value.Keys == reg.Keys
    ensures forall n :: n in reg ==>
              EntriesOf(ToToml(reg, order)).value[n] == Record(TypeStr(reg[n]), ToTomlValue(reg[n]))
  {
    var es := ToToml(reg, order).entries;
    forall i | 0 <= i < |es| ensures ParseRecord(es[i].val).Ok? {
      var n := es[i].key;
      assert es[i] in es;
      assert n in T.KeysOf(es);
      T.LookupDistinct(es, n, es[i].val);
      ParseRecordTable(reg[n]);
    }
    var entries := EntriesOf(ToToml(reg, order)).value;
    forall n | n in reg ensures entries[n] == Record(TypeStr(reg[n]), ToTomlValue(reg[n])) {
      assert entries[n] == RecordAt(es, n);
      ParseRecordTable(reg[n]);
    }
  }

  /** Records holding each value's kind tag and payload decode to the values. */
  lemma DecodeRendered(reg: map<string, Value>, entries: map<string, Record>)
    requires AllRenderable(reg) && forall n :: n in reg ==> TextSafe(n, reg[n])
    requires entries.Keys == reg.Keys
    requires forall n :: n in reg ==> entries[n] == Record(TypeStr(reg[n]), ToTomlValue(reg[n]))
    ensures AllDecode(entries) && DecodedMap(entries) == reg
  {
    forall n | n in entries ensures DecodeRecord(n, entries[n]) == Ok(reg[n]) {
      TextRoundTrip(n, reg[n]);
    }
    var d := DecodedMap(entries);
    forall n | n in d ensures d[n] == reg[n] {
      assert DecodeRecord(n, entries[n]) == Ok(d[n]);
    }
  }

  /** Export followed by import stages exactly the registry's values, each at
      the raw name it resolves to. */
  lemma ExportImportRoundTrip(st: State, order: seq<string>, decodeOrder: seq<string>, stageOrder: seq<string>)
    requires IsEnumeration(order, st.registry.Keys)
    requires AllRenderable(st.registry) && forall n :: n in st.registry ==> TextSafe(n, st.registry[n])
    requires IsEnumeration(decodeOrder, st.registry.Keys) && IsEnumeration(stageOrder, st.registry.Keys)
    ensures FromToml(st, ToToml(st.registry, order), decodeOrder, stageOrder)
         == Imported(Stage(st, st.registry, stageOrder), Ok(()))
  {
    var doc := ToToml(st.registry, order);
    ExportedRecords(st.registry, order);
    DecodeRendered(st.registry, EntriesOf(doc).value);
    FromTomlOutcome(st, doc, decodeOrder, stageOrder);
  }
}

=== FILE: tomltree.dfy ===
/** The document tree of the exported text file and `sort_toml`
    (src/toml.rs:133-146). A table is an ordered list of entries, so that the
    order the serializer would print is part of the value. */
module TomlTree {
  import opened Wrappers
  import opened Bytes

  datatype TomlValue =
    | Integer(i: i64)
    | Float(f: F64)
    | Boolean(b: bool)
    | String(s: string)
    | Array(items: seq<TomlValue>)
    | Table(entries: seq<Entry>)

  datatype Entry = Entry(key: string, val: TomlValue)

  predicate IsLeaf(v: TomlValue) {
    !v.Array? && !v.Table?
  }

  /** The value stored under `k`, taking the first entry with that key. */
  function Lookup(es: seq<Entry>, k: string): (r: Option<TomlValue>)
    ensures r.Some? <==> exists i :: 0 <= i < |es| && es[i].key == k
    ensures r.Some? ==> Entry(k, r.value) in es
  {
    if |es| == 0 then None
    else if es[0].key == k then Some(es[0].val)
    else
      var r := Lookup(es[1..], k);
      assert forall i :: 1 <= i < |es| ==> es[i] == es[1..][i - 1];
      r
  }

  function KeysOf(es: seq<Entry>): set<string> {
    set e | e in es :: e.key
  }

  predicate DistinctKeys(es: seq<Entry>) {
    forall i, j :: 0 <= i < j < |es| ==> es[i].key != es[j].key
  }

  // ----- the key order -----

  /** Strict lexicographic order on strings by code point. Rust orders `String`
      keys by their UTF-8 bytes, and UTF-8 preserves code point order, so the
      two orders agree. */
  predicate Less(a: string, b: string)
    decreases |a|
  {
    if |a| == 0 then |b| > 0
    else if |b| == 0 then false
    else a[0] < b[0] || (a[0] == b[0] && Less(a[1..], b[1..]))
  }

  predicate LessEq(a: string, b: string) {
    a == b || Less(a, b)
  }

  lemma {:induction false} LessIrreflexive(a: string)
    ensures !Less(a, a)
    decreases |a|
  {
    if |a| > 0 {
      LessIrreflexive(a[1..]);
    }
  }

  lemma {:induction false} LessAsymmetric(a: string, b: string)
    requires Less(a, b)
    ensures !Less(b, a)
    decreases |a|
  {
    if |a| > 0 && |b| > 0 && a[0] == b[0] {
      LessAsymmetric(a[1..], b[1..]);
    }
  }

  lemma {:induction false} LessTransitive(a: string, b: string, c: string)
    requires Less(a, b) && Less(b, c)
    ensures Less(a, c)
    decreases |a|
  {
    if |a| > 0 && a[0] == b[0] && b[0] == c[0] {
      LessTransitive(a[1..], b[1..], c[1..]);
    }
  }

  lemma {:induction false} LessTotal(a: string, b: string)
    requires a != b
    ensures Less(a, b) || Less(b, a)
    decreases |a|
  {
    if |a| > 0 && |b| > 0 && a[0] == b[0] {
      assert a == [a[0]] + a[1..] && b == [b[0]] + b[1..];
      LessTotal(a[1..], b[1..]);
    }
  }

  lemma LessEqTransitive(a: string, b: string, c: string)
    requires LessEq(a, b) && LessEq(b, c)
    ensures LessEq(a, c)
  {
    if a != b && b != c {
      LessTransitive(a, b, c);
    }
  }

  // ----- sorting a table's entries -----

  /** Keys ascend along the table. */
  predicate Sorted(es: seq<Entry>) {
    forall i, j :: 0 <= i < j < |es| ==> LessEq(es[i].key, es[j].key)
  }

  /** Keys strictly ascend along the table. */
  predicate StrictlySorted(es: seq<Entry>) {
    forall i, j :: 0 <= i < j < |es| ==> Less(es[i].key, es[j].key)
  }

  /** Inserts `e` before the first entry whose key is not smaller. */
  function Insert(e: Entry, es: seq<Entry>): (r: seq<Entry>)
    ensures multiset(r) == multiset(es) + multiset{e}
    ensures Sorted(es) ==> Sorted(r)
    decreases |es|
  {
    if |es| == 0 then [e]
    else if LessEq(e.key, es[0].key) then
      InsertFrontSorted(e, es);
      [e] + es
    else
      var rest := Insert(e, es[1..]);
      assert es == [es[0]] + es[1..];
      InsertBehindSorted(e, es, rest);
      [es[0]] + rest
  }

  lemma InsertFrontSorted(e: Entry, es: seq<Entry>)
    requires |es| > 0 && LessEq(e.key, es[0].key)
    ensures Sorted(es) ==> Sorted([e] + es)
  {
    if Sorted(es) {
      var r := [e] + es;
      forall i, j | 0 <= i < j < |r| ensures LessEq(r[i].key, r[j].key) {
        if i == 0 && j > 1 {
          LessEqTransitive(e.key, es[0].key, es[j - 1].key);
        }
      }
    }
  }

  lemma InsertBehindSorted(e: Entry, es: seq<Entry>, rest: seq<Entry>)
    requires |es| > 0 && !LessEq(e.key, es[0].key)
    requires multiset(rest) == multiset(es[1..]) + multiset{e}
    requires Sorted(es[1..]) ==> Sorted(rest)
    ensures Sorted(es) ==> Sorted([es[0]] + rest)
  {
    if Sorted(es) {
      assert Sorted(es[1..]);
      LessTotal(e.key, es[0].key);
      forall k | 0 <= k < |rest| ensures LessEq(es[0].key, rest[k].key) {
        assert rest[k] in multiset(rest);
        if rest[k] != e {
          assert rest[k] in es[1..];
        }
      }
    }
  }

  /** Insertion sort by key, stable for equal keys. */
  function SortEntries(es: seq<Entry>): (r: seq<Entry>)
    ensures multiset(r) == multiset(es)
    ensures Sorted(r)
  {
    if |es| == 0 then []
    else
      assert es == [es[0]] + es[1..];
      Insert(es[0], SortEntries(es[1..]))
  }

  lemma SameElements(a: seq<Entry>, b: seq<Entry>)
    requires multiset(a) == multiset(b)
    ensures forall e :: e in a <==> e in b
    ensures KeysOf(a) == KeysOf(b)
  {
    assert forall e :: e in a <==> e in multiset(a);
    assert forall e :: e in b <==> e in multiset(b);
  }

  lemma {:induction false} InsertDistinct(e: Entry, es: seq<Entry>)
    requires DistinctKeys(es) && e.key !in KeysOf(es)
    ensures DistinctKeys(Insert(e, es))
    decreases |es|
  {
    if |es| > 0 && !LessEq(e.key, es[0].key) {
      assert KeysOf(es[1..]) <= KeysOf(es) by {
        forall x | x in es[1..] ensures x in es { }
      }
      InsertDistinct(e, es[1..]);
      var rest := Insert(e, es[1..]);
      SameElements(rest, es[1..] + [e]);
      assert es[0].key in KeysOf(es);
      HeadKeyAvoided(e, es, rest);
    } else if |es| > 0 {
      forall k | 0 <= k < |es| ensures es[k].key != e.key {
        assert es[k] in es;
      }
    }
  }

  /** Entries drawn from the tail of a table with distinct keys, or a new
      entry with a different key, avoid the table's first key. */
  lemma HeadKeyAvoided(e: Entry, es: seq<Entry>, rest: seq<Entry>)
    requires |es| > 0 && DistinctKeys(es) && e.key != es[0].key
    requires forall x :: x in rest <==> x in es[1..] + [e]
    ensures forall k :: 0 <= k < |rest| ==> rest[k].key != es[0].key
  {
    forall k | 0 <= k < |rest| ensures rest[k].key != es[0].key {
      assert rest[k] in es[1..] + [e];
      if rest[k] != e {
        var j :| 0 <= j < |es[1..]| && es[1..][j] == rest[k];
        assert es[j + 1] == rest[k];
      }
    }
  }

  lemma {:induction false} SortEntriesDistinct(es: seq<Entry>)
    requires DistinctKeys(es)
    ensures DistinctKeys(SortEntries(es))
  {
    if |es| > 0 {
      SortEntriesDistinct(es[1..]);
      var rest := SortEntries(es[1..]);
      SameElements(rest, es[1..]);
      assert es[0].key !in KeysOf(es[1..]);
      InsertDistinct(es[0], rest);
    }
  }

  lemma SortedDistinctIsStrict(es: seq<Entry>)
    requires Sorted(es) && DistinctKeys(es)
    ensures StrictlySorted(es)
  {
  }

  /** Two strictly sorted tables holding the same entries are the same table. */
  lemma {:induction false} StrictlySortedUnique(a: seq<Entry>, b: seq<Entry>)
    requires StrictlySorted(a) && StrictlySorted(b)
    requires forall e :: e in a <==> e in b
    ensures a == b
    decreases |a|
  {
    if |b| > 0 {
      assert b[0] in b;
    }
    if |a| > 0 {
      SameHead(a, b);
      TailIncluded(a, b);
      TailIncluded(b, a);
      StrictlySortedUnique(a[1..], b[1..]);
      assert a == [a[0]] + a[1..];
      assert b == [b[0]] + b[1..];
    }
  }

  /** Strictly sorted tables with the same entries start with the same entry. */
  lemma SameHead(a: seq<Entry>, b: seq<Entry>)
    requires StrictlySorted(a) && StrictlySorted(b)
    requires forall e :: e in a <==> e in b
    requires |a| > 0
    ensures |b| > 0 && a[0] == b[0]
  {
    assert a[0] in a;
    assert b[0] in b;
    var i :| 0 <= i < |a| && a[i] == b[0];
    var j :| 0 <= j < |b| && b[j] == a[0];
    if i > 0 {
      if j > 0 {
        LessAsymmetric(a[0].key, a[i].key);
      } else {
        LessIrreflexive(a[0].key);
      }
      assert false;
    }
  }

  /** Past a shared first entry, the rest of a strictly sorted table lies in
      the rest of any table that includes it. */
  lemma TailIncluded(a: seq<Entry>, b: seq<Entry>)
    requires StrictlySorted(a) && |a| > 0 && |b| > 0 && a[0] == b[0]
    requires forall e :: e in a ==> e in b
    ensures forall e :: e in a[1..] ==> e in b[1..]
  {
    forall e | e in a[1..] ensures e in b[1..] {
      var k :| 1 <= k < |a| && a[k] == e;
      if e == a[0] {
        LessIrreflexive(a[0].key);
      }
      assert e in b;
    }
  }

  /** A sorted table is left as it is. */
  lemma {:induction false} SortEntriesSorted(es: seq<Entry>)
    requires Sorted(es)
    ensures SortEntries(es) == es
  {
    if |es| > 0 {
      SortEntriesSorted(es[1..]);
      assert es == [es[0]] + es[1..];
    }
  }

  // ----- sort_toml -----

  /** Every table at every depth has ascending keys. */
  predicate DeepSorted(v: TomlValue)
    decreases v
  {
    match v
    case Table(es) => Sorted(es) && forall i :: 0 <= i < |es| ==> DeepSorted(es[i].val)
    case Array(items) => forall i :: 0 <= i < |items| ==> DeepSorted(items[i])
    case _ => true
  }

  /** `sort_toml`: sorts the keys of every table, at every depth; arrays keep
      their order with each element sorted; scalars are unchanged. */
  function SortToml(v: TomlValue): (r: TomlValue)
    ensures DeepSorted(r)
    ensures IsLeaf(v) ==> r == v
    ensures v.Array? ==> (r.Array? && |r.items| == |v.items|
                          && forall i :: 0 <= i < |v.items| ==> r.items[i] == SortToml(v.items[i]))
    ensures v.Table? ==> (r.Table? && KeysOf(r.entries) == KeysOf(v.entries)
                          && multiset(r.entries) == multiset(SortChildren(v.entries)))
    decreases v, 1
  {
    match v
    case Table(es) =>
      var children := SortChildren(es);
      SortedChildren(es, children);
      Table(SortEntries(children))
    case Array(items) => Array(seq(|items|, i requires 0 <= i < |items| => SortToml(items[i])))
    case _ => v
  }

  /** Sorting entries whose values are sorted, and whose keys are those of
      `es` in order, gives a table with the keys of `es` and sorted values. */
  lemma SortedChildren(es: seq<Entry>, children: seq<Entry>)
    requires |children| == |es|
    requires forall i :: 0 <= i < |es| ==> children[i].key == es[i].key && DeepSorted(children[i].val)
    ensures KeysOf(SortEntries(children)) == KeysOf(es)
    ensures forall i :: 0 <= i < |SortEntries(children)| ==> DeepSorted(SortEntries(children)[i].val)
  {
    var sorted := SortEntries(children);
    SameElements(sorted, children);
    assert KeysOf(children) == KeysOf(es) by {
      forall k | k in KeysOf(es) ensures k in KeysOf(children) {
        var e :| e in es && e.key == k;
        var i :| 0 <= i < |es| && es[i] == e;
        assert children[i] in children;
      }
    }
    forall i | 0 <= i < |sorted| ensures DeepSorted(sorted[i].val) {
      assert sorted[i] in children;
    }
  }

  /** Each entry with its value sorted, in the table's order. */
  function SortChildren(es: seq<Entry>): (r: seq<Entry>)
    ensures |r| == |es|
    ensures forall i :: 0 <= i < |es| ==> r[i].key == es[i].key && DeepSorted(r[i].val)
    decreases es, 0
  {
    seq(|es|, i requires 0 <= i < |es| => Entry(es[i].key, SortToml(es[i].val)))
  }

  /** Sorting an already sorted tree changes nothing. */
  lemma {:induction false} SortTomlFixpoint(v: TomlValue)
    requires DeepSorted(v)
    ensures SortToml(v) == v
    decreases v
  {
    match v
    case Table(es) =>
      forall i | 0 <= i < |es| ensures SortToml(es[i].val) == es[i].val {
        SortTomlFixpoint(es[i].val);
      }
      assert SortChildren(es) == es;
      SortEntriesSorted(es);
    case Array(items) =>
      forall i | 0 <= i < |items| ensures SortToml(items[i]) == items[i] {
        SortTomlFixpoint(items[i]);
      }
    case _ =>
  }

  /** `sort_toml` is idempotent. */
  lemma SortTomlIdempotent(v: TomlValue)
    ensures SortToml(SortToml(v)) == SortToml(v)
  {
    SortTomlFixpoint(SortToml(v));
  }

  /** The sorted form of a table with distinct keys depends only on which entries
      it holds, not on their order. */
  lemma SortTomlOrderIndependent(a: seq<Entry>, b: seq<Entry>)
    requires DistinctKeys(a) && DistinctKeys(b)
    requires forall e :: e in a <==> e in b
    ensures SortToml(Table(a)) == SortToml(Table(b))
  {
    var ca, cb := SortChildren(a), SortChildren(b);
    SortChildrenIncluded(a, b);
    SortChildrenIncluded(b, a);
    SortEntriesDistinct(ca);
    SortEntriesDistinct(cb);
    var sa, sb := SortEntries(ca), SortEntries(cb);
    SameElements(sa, ca);
    SameElements(sb, cb);
    StrictlySortedUnique(sa, sb);
  }

  /** Sorting children preserves inclusion between the entries of two tables. */
  lemma SortChildrenIncluded(a: seq<Entry>, b: seq<Entry>)
    requires forall e :: e in a ==> e in b
    ensures forall e :: e in SortChildren(a) ==> e in SortChildren(b)
  {
    var ca, cb := SortChildren(a), SortChildren(b);
    forall e | e in ca ensures e in cb {
      var i :| 0 <= i < |ca| && ca[i] == e;
      assert a[i] in b;
      var j :| 0 <= j < |b| && b[j] == a[i];
      assert cb[j] == e;
    }
  }

  /** In a table with distinct keys, lookup finds the entry holding the key. */
  lemma {:induction false} LookupDistinct(es: seq<Entry>, k: string, x: TomlValue)
    requires DistinctKeys(es) && Entry(k, x) in es
    ensures Lookup(es, k) == Some(x)
    decreases |es|
  {
    if es[0] != Entry(k, x) {
      assert Entry(k, x) in es[1..];
      LookupDistinct(es[1..], k, x);
    }
  }

  /** Sorting a table with distinct keys keeps them distinct and holds exactly
      its entries with their values sorted. */
  lemma SortTableEntries(es: seq<Entry>)
    requires DistinctKeys(es)
    ensures SortToml(Table(es)).Table?
    ensures DistinctKeys(SortToml(Table(es)).entries)
    ensures forall e :: e in SortToml(Table(es)).entries
              <==> exists i :: 0 <= i < |es| && e == Entry(es[i].key, SortToml(es[i].val))
  {
    var children := SortChildren(es);
    SortEntriesDistinct(children);
    SameElements(SortEntries(children), children);
  }

  /** Two sorted tables with distinct keys that agree on every lookup are the
      same table. */
  lemma SortedTablesEqual(a: seq<Entry>, b: seq<Entry>)
    requires Sorted(a) && DistinctKeys(a) && Sorted(b) && DistinctKeys(b)
    requires KeysOf(a) == KeysOf(b)
    requires forall k :: k in KeysOf(a) ==> Lookup(a, k) == Lookup(b, k)
    ensures a == b
  {
    forall e | e in a ensures e in b {
      assert e.key in KeysOf(a);
      LookupDistinct(a, e.key, e.val);
    }
    forall e | e in b ensures e in a {
      assert e.key in KeysOf(b);
      LookupDistinct(b, e.key, e.val);
    }
    SortedDistinctIsStrict(a);
    SortedDistinctIsStrict(b);
    StrictlySortedUnique(a, b);
  }
}

=== FILE: utf8.dfy ===
/** UTF-8, as used by Rust's `str::as_bytes` (encoding) and `String::from_utf8`
    (strict decoding: no overlong forms, no surrogates, nothing above U+10FFFF). */
module Utf8 {
  import opened Wrappers
  import opened Bytes

  /** A Unicode scalar value: a code point that is not a surrogate. */
  predicate IsScalar(n: int) {
    0 <= n < 0xD800 || 0xE000 <= n < 0x11_0000
  }

  predicate IsCont(b: byte) {
    0x80 <= b < 0xC0
  }

  /** The bytes of one character. */
  function EncodeChar(c: char): (r: seq<byte>)
    ensures 1 <= |r| <= 4
    ensures r[0] < 0x80 || 0xC0 <= r[0] < 0xF8
    ensures forall i :: 1 <= i < |r| ==> IsCont(r[i])
  {
    var n := c as int;
    if n < 0x80 then [n]
    else if n < 0x800 then [0xC0 + n / 64, 0x80 + n % 64]
    else if n < 0x1_0000 then [0xE0 + n / 4096, 0x80 + (n / 64) % 64, 0x80 + n % 64]
    else [0xF0 + n / 0x4_0000, 0x80 + (n / 4096) % 64, 0x80 + (n / 64) % 64, 0x80 + n % 64]
  }

  function Encode(s: string): (r: seq<byte>)
    ensures |r| >= |s|
  {
    if |s| == 0 then [] else EncodeChar(s[0]) + Encode(s[1..])
  }

  /** Decodes the character at the front of `bs`, with the number of bytes it
      occupies, or `None` when the front of `bs` is not a well-formed sequence. */
  function DecodeFirst(bs: seq<byte>): (r: Option<(char, nat)>)
    requires |bs| > 0
    ensures r.Some? ==> 1 <= r.value.1 <= |bs|
  {
    var b0: int := bs[0];
    if b0 < 0x80 then
      Some((b0 as char, 1))
    else if 0xC0 <= b0 < 0xE0 then
      if |bs| < 2 || !IsCont(bs[1]) then None
      else
        var n := (b0 - 0xC0) * 64 + (bs[1] as int - 0x80);
        if n < 0x80 then None else Some((n as char, 2))
    else if 0xE0 <= b0 < 0xF0 then
      if |bs| < 3 || !IsCont(bs[1]) || !IsCont(bs[2]) then None
      else
        var n := (b0 - 0xE0) * 4096 + (bs[1] as int - 0x80) * 64 + (bs[2] as int - 0x80);
        if n < 0x800 || 0xD800 <= n < 0xE000 then None else Some((n as char, 3))
    else if 0xF0 <= b0 < 0xF8 then
      if |bs| < 4 || !IsCont(bs[1]) || !IsCont(bs[2]) || !IsCont(bs[3]) then None
      else
        var n := (b0 - 0xF0) * 0x4_0000 + (bs[1] as int - 0x80) * 4096 + (bs[2] as int - 0x80) * 64 + (bs[3] as int - 0x80);
        if n < 0x1_0000 || n >= 0x11_0000 then None else Some((n as char, 4))
    else
      None
  }

  /** `String::from_utf8`: `None` exactly when the bytes are not valid UTF-8. */
  function Decode(bs: seq<byte>): (r: Option<string>)
    decreases |bs|
  {
    if |bs| == 0 then Some("")
    else
      match DecodeFirst(bs)
      case None => None
      case Some((c, k)) =>
        match Decode(bs[k..])
        case None => None
        case Some(rest) => Some([c] + rest)
  }

  lemma DivMod(n: int, d: int, q: int, m: int)
    requires d > 0 && 0 <= m < d && n == q * d + m
    ensures n / d == q && n % d == m
  {
    var q', m' := n / d, n % d;
    assert (q - q') * d == m' - m;
    if q > q' {
      MulAtLeast(q - q', d);
    } else if q < q' {
      MulAtLeast(q' - q, d);
    }
  }

  lemma MulAtLeast(a: int, d: int)
    requires a >= 1 && d > 0
    ensures a * d >= d
  {
  }

  /** The base-64 digits of a three-byte character. */
  lemma Digits3(n: int)
    requires 0x800 <= n < 0x1_0000
    ensures (n / 4096) * 4096 + ((n / 64) % 64) * 64 + n % 64 == n
  {
    var q := n / 64;
    DivMod(n, 64, q, n % 64);
    DivMod(q, 64, q / 64, q % 64);
    DivMod(n, 4096, q / 64, (q % 64) * 64 + n % 64);
  }

  /** The base-64 digits of a four-byte character. */
  lemma Digits4(n: int)
    requires 0x1_0000 <= n < 0x11_0000
    ensures (n / 0x4_0000) * 0x4_0000 + ((n / 4096) % 64) * 4096 + ((n / 64) % 64) * 64 + n % 64 == n
  {
    var q := n / 64;
    var q2 := q / 64;
    DivMod(n, 64, q, n % 64);
    DivMod(q, 64, q2, q % 64);
    DivMod(q2, 64, q2 / 64, q2 % 64);
    DivMod(n, 4096, q2, (q % 64) * 64 + n % 64);
    DivMod(n, 0x4_0000, q2 / 64, (q2 % 64) * 4096 + (q % 64) * 64 + n % 64);
  }

  lemma DecodeFirstTwo(c: char, rest: seq<byte>)
    requires 0x80 <= c as int < 0x800
    ensures DecodeFirst(EncodeChar(c) + rest) == Some((c, 2))
  {
    var n := c as int;
    var bs := EncodeChar(c) + rest;
    DivMod(n, 64, n / 64, n % 64);
    assert bs[0] == 0xC0 + n / 64 && bs[1] == 0x80 + n % 64;
    assert (bs[0] as int - 0xC0) * 64 + (bs[1] as int - 0x80) == n;
  }

  lemma DecodeFirstThree(c: char, rest: seq<byte>)
    requires 0x800 <= c as int < 0x1_0000
    ensures DecodeFirst(EncodeChar(c) + rest) == Some((c, 3))
  {
    var n := c as int;
    var bs := EncodeChar(c) + rest;
    Digits3(n);
    assert bs[0] == 0xE0 + n / 4096 && bs[1] == 0x80 + (n / 64) % 64 && bs[2] == 0x80 + n % 64;
    assert (bs[0] as int - 0xE0) * 4096 + (bs[1] as int - 0x80) * 64 + (bs[2] as int - 0x80) == n;
  }

  lemma DecodeFirstFour(c: char, rest: seq<byte>)
    requires 0x1_0000 <= c as int
    ensures DecodeFirst(EncodeChar(c) + rest) == Some((c, 4))
  {
    var n := c as int;
    var bs := EncodeChar(c) + rest;
    Digits4(n);
    assert bs[0] == 0xF0 + n / 0x4_0000 && bs[1] == 0x80 + (n / 4096) % 64;
    assert bs[2] == 0x80 + (n / 64) % 64 && bs[3] == 0x80 + n % 64;
    assert (bs[0] as int - 0xF0) * 0x4_0000 + (bs[1] as int - 0x80) * 4096
         + (bs[2] as int - 0x80) * 64 + (bs[3] as int - 0x80) == n;
  }

  /** The first character of an encoding decodes back, using exactly its bytes. */
  lemma DecodeFirstEncodeChar(c: char, rest: seq<byte>)
    ensures DecodeFirst(EncodeChar(c) + rest) == Some((c, |EncodeChar(c)|))
  {
    var n := c as int;
    if n < 0x80 {
    } else if n < 0x800 {
      DecodeFirstTwo(c, rest);
    } else if n < 0x1_0000 {
      DecodeFirstThree(c, rest);
    } else {
      DecodeFirstFour(c, rest);
    }
  }

  /** Decoding what was encoded gives back the string. */
  lemma {:induction false} DecodeEncode(s: string)
    ensures Decode(Encode(s)) == Some(s)
  {
    if |s| > 0 {
      var e := EncodeChar(s[0]);
      var bs := Encode(s);
      DecodeFirstEncodeChar(s[0], Encode(s[1..]));
      assert bs[|e|..] == Encode(s[1..]);
      DecodeEncode(s[1..]);
      assert s == [s[0]] + s[1..];
    }
  }

  lemma {:induction false} EncodeCharDecodeFirst(bs: seq<byte>)
    requires |bs| > 0 && DecodeFirst(bs).Some?
    ensures EncodeChar(DecodeFirst(bs).value.0) == bs[..DecodeFirst(bs).value.1]
  {
    var b0: int := bs[0];
    var c := DecodeFirst(bs).value.0;
    var n := c as int;
    if b0 < 0x80 {
    } else if b0 < 0xE0 {
      DivMod(n, 64, b0 - 0xC0, bs[1] as int - 0x80);
    } else if b0 < 0xF0 {
      var q := (b0 - 0xE0) * 64 + (bs[1] as int - 0x80);
      DivMod(n, 64, q, bs[2] as int - 0x80);
      DivMod(q, 64, b0 - 0xE0, bs[1] as int - 0x80);
      DivMod(n, 4096, b0 - 0xE0, (bs[1] as int - 0x80) * 64 + (bs[2] as int - 0x80));
    } else {
      var q2 := (b0 - 0xF0) * 64 + (bs[1] as int - 0x80);
      var q := q2 * 64 + (bs[2] as int - 0x80);
      DivMod(n, 64, q, bs[3] as int - 0x80);
      DivMod(q, 64, q2, bs[2] as int - 0x80);
      DivMod(q2, 64, b0 - 0xF0, bs[1] as int - 0x80);
      DivMod(n, 4096, q2, (bs[2] as int - 0x80) * 64 + (bs[3] as int - 0x80));
      DivMod(n, 0x4_0000, b0 - 0xF0, (bs[1] as int - 0x80) * 4096 + (bs[2] as int - 0x80) * 64 + (bs[3] as int - 0x80));
    }
  }

  /** Conversely, bytes that decode are exactly the encoding of what they decode to:
      a string has one UTF-8 form. */
  lemma {:induction false} EncodeDecode(bs: seq<byte>)
    requires Decode(bs).Some?
    ensures Encode(Decode(bs).value) == bs
    decreases |bs|
  {
    if |bs| > 0 {
      var k := DecodeFirst(bs).value.1;
      EncodeCharDecodeFirst(bs);
      EncodeDecode(bs[k..]);
      var s := Decode(bs).value;
      assert s[1..] == Decode(bs[k..]).value;
      assert bs == bs[..k] + bs[k..];
    }
  }
}

=== FILE: values.dfy ===
/** The closed set of setting values (`BattlebitType`, src/battlebit.rs:53-62)
    and their registry and text encodings. */
module Values {
  import opened Bytes
  import opened Utf8
  import Keys
  import T = TomlTree

  datatype Value =
    | Int(i: i32)
    | Float(f: F64)
    | Bool(b: bool)
    | Axis(a: i32)
    | Color(channel: i32, c: F64)   // channel: R = 0, G = 1, B = 2, A = 3
    | Key(code: i32)
    | Str(s: string)

  /** The registry's value type tag. */
  datatype RegType = RegDword | RegBinary

  /** A raw registry value: its bytes and its type tag. */
  datatype RegValue = RegValue(bytes: seq<byte>, vtype: RegType)

  /** The kind tags written to, and accepted from, the text file. */
  const KIND_TAGS: set<string> := {"int", "float", "bool", "axis", "color", "key", "str"}

  /** `to_reg_type_str`. */
  function TypeStr(v: Value): (r: string)
    ensures r in KIND_TAGS
  {
    match v
    case Int(_) => "int"
    case Float(_) => "float"
    case Bool(_) => "bool"
    case Axis(_) => "axis"
    case Color(_, _) => "color"
    case Key(_) => "key"
    case Str(_) => "str"
  }

  /** Two values share a tag exactly when they are of the same kind. */
  lemma TypeStrIdentifiesKind(v: Value, w: Value)
    ensures TypeStr(v) == TypeStr(w) <==> (
      || (v.Int? && w.Int?) || (v.Float? && w.Float?) || (v.Bool? && w.Bool?)
      || (v.Axis? && w.Axis?) || (v.Color? && w.Color?) || (v.Key? && w.Key?)
      || (v.Str? && w.Str?))
  {
  }

  /** The number of bytes `to_reg_value` writes for a value of this kind. */
  function EncodedLength(v: Value): nat
  {
    match v
    case Int(_) => 4
    case Axis(_) => 4
    case Key(_) => 4
    case Float(_) => 8
    case Color(_, _) => 8
    case Bool(_) => 1
    case Str(s) => |Encode(s)|
  }

  /** `to_reg_value`: little-endian numbers, one byte for a boolean, UTF-8 text;
      only text is tagged as binary. */
  function ToRegValue(v: Value): (r: RegValue)
    ensures |r.bytes| == EncodedLength(v)
    ensures r.vtype == RegBinary <==> v.Str?
  {
    match v
    case Int(i) => RegValue(I32ToLe(i), RegDword)
    case Float(f) => RegValue(F64ToLe(f), RegDword)
    case Bool(b) => RegValue([if b then 1 else 0], RegDword)
    case Axis(a) => RegValue(I32ToLe(a), RegDword)
    case Color(_, c) => RegValue(F64ToLe(c), RegDword)
    case Key(k) => RegValue(I32ToLe(k), RegDword)
    case Str(s) => RegValue(Encode(s), RegBinary)
  }

  /** A value `to_toml_value` is defined on: a key code must be a Unicode scalar
      value, since the source converts it to a character unchecked. */
  predicate Renderable(v: Value) {
    v.Key? ==> IsScalar(v.code)
  }

  /** `to_toml_value`: integers for Int and Axis, floats for Float and for a
      colour channel's value, a boolean, and strings for keys and text. */
  function ToTomlValue(v: Value): (r: T.TomlValue)
    requires Renderable(v)
    ensures T.IsLeaf(r)
    ensures r.Integer? <==> v.Int? || v.Axis?
    ensures r.Float? <==> v.Float? || v.Color?
    ensures r.Boolean? <==> v.Bool?
    ensures r.String? <==> v.Key? || v.Str?
  {
    match v
    case Int(i) => T.Integer(i)
    case Float(f) => T.Float(f)
    case Bool(b) => T.Boolean(b)
    case Axis(a) => T.Integer(a)
    case Color(_, c) => T.Float(c)
    case Key(k) => T.String(Keys.ToKeyAscii(k))
    case Str(s) => T.String(s)
  }
}

=== FILE: wrappers.dfy ===
/** Failure-compatible result types shared by every module of the model. */
module Wrappers {

  datatype Option<+T> = None | Some(value: T)

  /** `Ok` carries the result of an operation that succeeded, `Err` the reason it failed. */
  datatype Result<+T, +E> = Ok(value: T) | Err(error: E) {

    predicate IsFailure() {
      Err?
    }

    function PropagateFailure<U>(): Result<U, E>
      requires Err?
    {
      Err(error)
    }

    function Extract(): T
      requires Ok?
    {
      value
    }
  }
}
